=== FILE: README.md ===
# RecoveryTrainer: medicine adherence and recovery workouts, in Dafny

RecoveryTrainer is a post-surgery recovery web application. This project
models its core as pure functions over immutable data. The core has four
parts:

- **Medical profile and medicines.** There is one profile per user. It holds
  three free-text fields and an ordered list of embedded medicines. The
  handlers create or overwrite the profile from a form, and they list, add,
  patch and delete single medicines.
- **Dose history.** Each dose outcome (taken, skipped or missed) is stored as
  an immutable event. The history query returns one user's events, optionally
  restricted to a date range, most recent first.
- **Statistics.** The statistics handler reports today's tally and an
  adherence percentage. It also reports a streak of fully adherent days,
  computed over the last thirty days.
- **Workouts.** The exercise service filters a catalogue answer for low-impact
  exercises, narrows it by recovery week and keeps at most ten. The workout
  system spreads those exercises over a weekly plan, one per day.

The web framework, the database and the clock are not modelled. Each handler
takes what the store returned, the caller's ids and the current time as
parameters:

- a profile lookup is an `Option<Profile>`;
- a history, statistics or streak query that fails is `None`;
- the exercise catalogue is a function from body part to an optional list.

Failures become a `Result` with the route's error:

- `ProfileNotFound` and `MedicineNotFound` are the two 404 answers;
- `ServerError` is the catch-all 500.

Timestamps are integer milliseconds, and a calendar day is
`scheduledDate / 86_400_000`, the date part of the UTC ISO string. Object ids
are natural numbers supplied by the caller.

Modules:

- `Base`: `Option`, `Result`, and `Filter` (the order-preserving array filter, with its multiset and subsequence contract).
- `JsStrings`: `trim`, ASCII `toLowerCase` and `includes`.
- `MedicalInfo`: the three schemas, their defaults and the status enum.
- `Medicines`: the profile and medicine handlers.
- `History`: recording dose events and querying them.
- `Streak`: grouping by day and the streak walk.
- `Stats`: the statistics handler.
- `Exercises`: the exercise service.
- `Workout`: the workout system and the workout-plan handler.

Where the route code behaves differently from what its own comments and
names suggest, the model follows the code:

- A day counts as adherent only when it has events and all of them were taken
  (`day.total > 0` in the streak loop).
- The streak's `current` value is assigned only while the loop visits the
  newest date. It is therefore always 0 or 1, never the length of the newest
  run.
- A whitespace-only medicine name is dropped when it arrives inside an array,
  but kept when it arrives alone.
- Deleting an unknown medicine id ends in the generic 500, not a 404.
- The workout-plan handler reads a `surgeryDate` field that the profile schema
  does not have. The recovery week is therefore always 1, and the plan always
  uses the weeks-one-and-two exercise filter.

## Model

| member | source | states |
|---|---|---|
| MedicalInfo.ParseStatus | models/medicalInfo.js:23-27 | a status string is accepted exactly when it names one of taken, skipped, missed, and then the accepted status has that name |
| MedicalInfo.CastMedicine | models/medicalInfo.js:3-13 | every supplied field is stored as given and each omitted field takes its schema default: no times, the creation time as start date, 30 days, active and reminding; the record passes validation exactly when its name is present and non-empty |
| MedicalInfo.CastFieldsOfRoundTrip | models/medicalInfo.js:3-13 | supplying every field of a stored medicine overrides every default, so casting it back gives the same medicine whatever the clock says |
| MedicalInfo.NewHistoryEvent | models/medicalInfo.js:16-29 | an event is built exactly when medicine id, scheduled date and an enum status are given; it copies the request fields, and the actual and creation times are the current time |
| MedicalInfo.EmptyProfile | routes/userRoutes.js:282-287 | the profile created for a user without one has that user id, no medicines, no surgery details, health status or other problems, is stamped with the current time, and passes validation |
| Medicines.NormalizeMedicines | routes/userRoutes.js:137-143 | a falsy value gives no medicines; a single object is kept exactly when its name is truthy; an array keeps, in order and with multiplicity, exactly the entries whose name is non-blank after trimming |
| Medicines.BlankNameSingleVersusArray | routes/userRoutes.js:139-142 | a name of one space survives when sent alone but is dropped inside an array |
| Medicines.SaveMedicalInfo | routes/userRoutes.js:130-168 | the saved profile keeps the existing owner and creation time or takes the new ones, carries the three submitted text fields, holds, in order, each normalised entry cast with the schema defaults under a fresh id, always passes validation and has distinct medicine ids |
| Medicines.NewMedicine | routes/userRoutes.js:289-298 | the pushed record keeps name, dosage and frequency; a missing times list becomes empty, a missing or zero start date becomes now; a non-zero duration is kept, the duration is never 0 and is 30 exactly when it was missing, 0 or 30; both flags are on |
| Medicines.AddMedicine | routes/userRoutes.js:276-308 | the add succeeds exactly when the name is truthy, otherwise it is a 500; on success exactly one medicine is appended after the unchanged existing ones and nothing else in the profile changes; for a user without a profile the result is the new empty profile holding only that medicine |
| Medicines.FindIndex | routes/userRoutes.js:318 | the subdocument lookup finds the first medicine with the id, and finds nothing exactly when no medicine has it |
| Medicines.ApplyPatch | routes/userRoutes.js:323 | for each of the eight schema fields, a value the request carries overwrites the stored one and an absent one leaves it; the id stays, and an empty request changes nothing |
| Medicines.ApplyPatchIdempotent | routes/userRoutes.js:323 | applying the same request body twice is the same as applying it once |
| Medicines.ApplyFullPatch | routes/userRoutes.js:323 | a body carrying every field of another medicine turns the stored one into it, keeping its own id |
| Medicines.UpdateMedicine | routes/userRoutes.js:311-331 | 404 without a profile or without a medicine of that id; otherwise the update succeeds exactly when the patched first medicine with that id still has a valid name, and then only that medicine is replaced by its patched version, else it is a 500; validity of the profile is preserved |
| Medicines.DeleteMedicine | routes/userRoutes.js:334-349 | 404 without a profile; an unknown id is a 500; when the id is present the delete succeeds and removes exactly the first medicine with it, the others keeping their order |
| Medicines.DeleteRemovesExactlyTheId | routes/userRoutes.js:341 | with distinct ids, deleting an id the profile holds succeeds and leaves one fewer medicine, none with that id, and every other medicine still present |
| Medicines.AddThenDeleteRoundTrip | routes/userRoutes.js:276-349 | adding a named medicine under a fresh id and then deleting that id gives back the original profile |
| History.SaveHistory | routes/userRoutes.js:352-371 | the record handler succeeds exactly when medicine id, date and an enum status are given, appending after the unchanged log exactly the event the schema builds, name, time and timestamps included; otherwise it is a 500 |
| History.SortDesc | routes/userRoutes.js:386 | the result is ordered by scheduled date, most recent first, and is a permutation of the input |
| History.QueryHistory | routes/userRoutes.js:374-392 | a failed query is a 500; otherwise the answer is most recent first and holds, with their multiplicity, exactly the user's events, restricted to the inclusive date range only when both bounds are given |
| Streak.AddRecord | routes/userRoutes.js:439-448 | counting one event keeps the buckets newest-first with one non-empty bucket per day, and the set of days gains exactly the event's day |
| Streak.AddRecordCounts | routes/userRoutes.js:441-447 | an event adds one to its own day's total, and to its taken count when it was taken, and changes no other day |
| Streak.Group | routes/userRoutes.js:437-455 | the buckets are newest first, there is one exactly for each day that has events, and each holds that day's number of events and of taken events |
| Streak.WalkLongest | routes/userRoutes.js:457-467 | the loop's invariant: from any position where it holds, the walk ends with the length of the longest run of consecutive adherent days |
| Streak.WalkSpec | routes/userRoutes.js:450-469 | `Walk`, the loop over the sorted dates, run over newest-first buckets gives as longest the longest adherent run, and as current 1 exactly when the newest day is adherent, else 0 |
| Streak.CalculateStreak | routes/userRoutes.js:427-474 | a failed query gives 0 and 0; otherwise, over the days of `Window` (the user's events with `InWindow`: scheduled at most thirty days before now), longest is the longest adherent run, current is 1 exactly when the newest day is adherent, current never exceeds 1 or longest, and longest never exceeds the number of days |
| Streak.LatestDay | routes/userRoutes.js:455 | the most recent calendar day among the events is one of their days and no event is later |
| Streak.TakenCountIff | routes/userRoutes.js:459 | a day's taken count never exceeds its event count, and equals it exactly when every event of the day was taken |
| Streak.StreakCurrentMeaning | routes/userRoutes.js:459-461 | current is 1 exactly when the window has events and every event on its most recent day was taken |
| Streak.RunSurvivesMissed | routes/userRoutes.js:439-466 | every adherent run in the buckets after adding an untaken record was already a run of that length before |
| Streak.MissedRecordNeverRaisesWalk | routes/userRoutes.js:439-467 | adding an untaken record to the buckets never raises the walk's longest or current |
| Streak.MissedDoseNeverRaisesStreak | routes/userRoutes.js:427-474 | logging a dose that was not taken never raises the longest streak or the current value |
| Streak.FiveAdherentThenMissed | routes/userRoutes.js:457-467 | five adherent days older than a newest day with a missed dose give current 0 and longest 5 |
| Stats.CountStatusIsFilterLength | routes/userRoutes.js:407-409 | the per-status count is the length of the status filter over today's events |
| Stats.TodayTally | routes/userRoutes.js:397-410 | the tally counts `TodayEvents` (the user's events with `IsToday`: scheduled from the start of the day up to the next), per status, and the three counts add up to the total |
| Stats.AdherenceRate | routes/userRoutes.js:417 | 100 when there are no events; otherwise the integer nearest to taken/total as a percentage with halves rounded up, between 0 and 100, and 100 when all were taken |
| Stats.MedicineStats | routes/userRoutes.js:395-424 | a failed today query is a 500; otherwise the counts are today's per-status counts adding up to the total, the rate is the rounded percentage of them (in 0..100, 100 for an empty or perfect day), and the streak is the streak helper's answer over its own query, 0 and 0 when that query fails |
| Stats.TwoOfThreeDay | routes/userRoutes.js:402-417 | on a day with two doses taken and one missed, beside another user's dose and a dose of the previous day, the tally counts only the day's three doses and the rate is 67 |
| Exercises.FilterForRecovery | services/exerciseService.js:25-40 | keeps, in order and with multiplicity, exactly the exercises whose lower-cased equipment or name contains a recovery-friendly word and whose name has none of heavy, max, explosive |
| Exercises.RecoveryKeepsNoHighRiskWord | services/exerciseService.js:34-36 | no kept exercise has heavy, max or explosive at any position of its lower-cased name |
| Exercises.FetchForRecovery | services/exerciseService.js:8-23 | a failed request gives no exercises; otherwise, in order and with multiplicity, exactly the answer's low-impact exercises without a high-risk word |
| Exercises.FilterByRecoveryWeek | services/exerciseService.js:58-74 | weeks up to 2 keep exactly the stretching, gentle or assisted exercises; weeks 3 to 6 keep exactly the cable, resistance-band or light ones; later weeks keep everything |
| Exercises.BodyPartFor | services/exerciseService.js:43-50 | the body part is legs exactly for knee and hip replacement, shoulders exactly for shoulder surgery, back exactly for back surgery, and cardio exactly when the surgery type is absent or not in the table |
| Exercises.GetRecoveryExercises | services/exerciseService.js:42-56 | the result is the first min(10, n) of the n week-filtered recovery exercises for the mapped body part, all recovery-friendly, and empty when the catalogue fails |
| Workout.ToPlanExercise | services/workoutSystem.js:31-37 | the plan entry keeps the name and picture, its description is "Target: " followed by the target, its duration is the fixed one, and its instructions are the exercise's, or none when it has none |
| Workout.EnhanceWeeklyPlan | services/workoutSystem.js:26-42 | the days and their order stay; day number i keeps its exercises and gains exactly catalogue exercise number i after them when there is one |
| Workout.EnhanceAppendsCatalogueInOrder | services/workoutSystem.js:29-39 | the exercises appended, read day by day, are exactly the first catalogue exercises, one per day, converted and in order |
| Workout.EnhanceTotal | services/workoutSystem.js:29-39 | the week gains exactly min(days, catalogue exercises) exercises |
| Workout.EnhanceDefaultPlan | routes/userRoutes.js:181-194 | enhancing the base engine's seven empty days gives Monday onward one catalogue exercise each while they last, and leaves the rest empty |
| Workout.GenerateEnhancedWorkoutPlan | services/workoutSystem.js:9-24 | the additional exercises are exactly the service's recovery exercises for the surgery type and week, at most ten and all recovery-friendly, and the weekly plan is exactly the base plan with them appended one per day in order |
| Workout.WeeksPostSurgery | routes/userRoutes.js:229-235 | 1 without a surgery date; otherwise the least whole number of weeks covering the distance between surgery and now |
| Workout.SameInstantIsWeekZero | routes/userRoutes.js:229-235 | a surgery at the current instant gives week 0 |
| Workout.NextUpdate | routes/userRoutes.js:237-242 | the next refresh is 7 days ahead exactly up to week 8 and 14 days ahead exactly after it |
| Workout.WorkoutPlanRoute | routes/userRoutes.js:197-226 | 404 exactly without a profile; otherwise the extras are the service's recovery exercises for the profile's surgery details in week 1, so they pass the recovery and weeks-one-and-two filters; the seven days Monday to Sunday get the extras one each, in order, or stay empty; the next refresh is a week away |

## Left out

- Floating point: `Math.round(taken / total * 100)` is modelled as exact rounding of the rational value, halves up. Binary floating point could differ at a tie.
- Time zones: the statistics handler's local-time midnight and `setDate` arithmetic are taken as UTC day boundaries, so daylight-saving shifts are not modelled. The start of day is a parameter.
- Workout.NextUpdate: adds whole days of milliseconds rather than local calendar days, so the model does not follow a daylight-saving change.
- Invalid dates: `new Date(x)` on an unparseable string gives an Invalid Date. The model takes dates as integers, so that case is not modelled.
- `null` and `undefined` are both `None`. Other falsy request values (0, "", false) are modelled only where the code tests truthiness: name, duration, times and start date.
- JavaScript's Unicode `toLowerCase` is modelled for ASCII letters only. `trim` uses the ECMAScript white-space and line-terminator set.
- Exercises.BodyPartFor: keys inherited from `Object.prototype` such as "constructor" are not modelled. Such a surgery type would yield a function rather than a string.
- Medicine ids and event ids are caller-supplied numbers. Distinctness of ids is an assumption of the lemmas that need it.
- Medicines.AddMedicine, Medicines.UpdateMedicine and Medicines.DeleteMedicine: a profile lookup or a `save()` that fails in the database is not modelled. The handlers answer it with their catch-all 500 (routes/userRoutes.js:304-307, 327-330, 345-348); the model takes the lookup's answer as given and the save as succeeding.
- Mongoose versions that dropped the subdocument `.remove()` would answer every delete with a 500. The model follows versions that have it.
- Medicines.NewMedicine: a string duration such as "0" is truthy in the add handler and the schema then casts it to 0, so the promise that the duration is never 0 holds only for numeric request bodies; request values are modelled as already typed.
- Medicines.NewMedicine: a start date is modelled as a number, so among the falsy start dates only 0 is represented (it becomes now, as `0 || new Date()` does); an empty string is not.
- Medicines.ApplyPatch: a field the request body sets to an explicit JSON `null` is modelled as absent, so the stored value is kept and the update succeeds. In the source `Object.assign` (routes/userRoutes.js:323) writes the null: `{"dosage": null}` clears the dosage, and `{"name": null}` fails validation and answers 500.
- History.SaveHistory: a missing scheduled date is modelled as a 500. In the source `new Date(null)` (routes/userRoutes.js:360) is the epoch, 1970-01-01, so an explicit `null` date is saved with that day; only an absent or unparsable date fails the schema.
- Medicines.DeleteMedicine: removes only the first medicine carrying the id. The subdocument `.remove()` (routes/userRoutes.js:341) pulls every medicine with that `_id`, so the two differ only when a profile holds a repeated id.
- Medicines.ApplyPatch: the id is kept because the model's patch has no id field. A request body carrying `_id` would re-id the medicine through `Object.assign`; that is not modelled.
- Update validation: `Object.assign` is modelled with the schema's fields only; unknown body keys are ignored. Type casting of patched fields (a string duration, for example) is not modelled.
- The history query's sort is modelled by its key, most recent first. The order among events with equal dates is not promised.
- The streak's buckets are ordered by integer day number. The code sorts ISO date strings; for years after 9999 `toISOString` gives "+010000-…", which sorts before "2024-…", so the two orders differ only for such dates.
- The streak helper sorts its query by date, but grouping does not depend on order, so the model groups the log as it is.
- Aliasing: `enhanceWeeklyPlan` copies the plan shallowly, so the base plan's day arrays are mutated too. The model returns a new plan, and the base plan is not used afterwards.
- Page-rendering routes, authentication, sessions, logout and flash messages are not part of this model.
- The network request of the exercise service is the `catalogue` parameter. A failed request or a failed JSON decoding is `None`.

=== FILE: base.dfy ===
/** Small vocabulary shared by every module of the model: optional values,
    results with an error, and the order-preserving filter that JavaScript's
    `Array.prototype.filter` performs. */
module Base {

  /** A value that may be absent (`undefined`/`null` on the JavaScript side). */
  datatype Option<+T> = None | Some(value: T)

  /** The outcome of an operation that can fail with an error `E`. */
  datatype Result<+T, +E> = Ok(value: T) | Err(error: E)

  function Max(a: int, b: int): int
  {
    if a < b then b else a
  }

  function Min(a: int, b: int): int
  {
    if a < b then a else b
  }

  /** `r` can be obtained from `s` by deleting elements, keeping the order of the rest. */
  predicate IsSubseq<T(==)>(r: seq<T>, s: seq<T>)
    decreases |s|
  {
    if |r| == 0 then true
    else if |s| == 0 then false
    else (r[0] == s[0] && IsSubseq(r[1..], s[1..])) || IsSubseq(r, s[1..])
  }

  /** `Array.prototype.filter`: the elements of `s` satisfying `p`, in their
      original order and with their original multiplicities. */
  function Filter<T(==,!new)>(p: T -> bool, s: seq<T>): (r: seq<T>)
    ensures |r| <= |s|
    ensures forall i :: 0 <= i < |r| ==> p(r[i])
    ensures forall x {:trigger multiset(r)[x]} :: multiset(r)[x] == if p(x) then multiset(s)[x] else 0
    ensures IsSubseq(r, s)
  {
    if |s| == 0 then []
    else
      var rest := Filter(p, s[1..]);
      assert s == [s[0]] + s[1..];
      if p(s[0]) then
        assert ([s[0]] + rest)[1..] == rest;
        [s[0]] + rest
      else rest
  }

  /** Membership in a filtered sequence, as both directions of an equivalence. */
  lemma FilterMembership<T(!new)>(p: T -> bool, s: seq<T>, x: T)
    ensures x in Filter(p, s) <==> x in s && p(x)
  {
    var r := Filter(p, s);
    assert x in r <==> multiset(r)[x] > 0;
    assert x in s <==> multiset(s)[x] > 0;
  }

  /** Filtering a sequence extended by one element extends the filtered
      sequence by that element exactly when it passes. */
  lemma {:induction false} FilterSnoc<T(!new)>(p: T -> bool, s: seq<T>, x: T)
    ensures Filter(p, s + [x]) == Filter(p, s) + (if p(x) then [x] else [])
    decreases |s|
  {
    if |s| == 0 {
      assert s + [x] == [x];
    } else {
      assert (s + [x])[1..] == s[1..] + [x];
      FilterSnoc(p, s[1..], x);
    }
  }

  /** `Array.prototype.slice(0, n)` for a non-negative `n`. */
  function Take<T>(s: seq<T>, n: nat): (r: seq<T>)
    ensures |r| == Min(n, |s|)
    ensures r <= s
  {
    if n < |s| then s[..n] else s
  }
}

=== FILE: exercises.dfy ===
/** The recovery-exercise service without its HTTP client: the catalogue's
    answer for a body part is an input, and the service filters it for
    low-impact exercises, narrows it by recovery week and keeps at most ten. */
module Exercises {
  import opened Base
  import opened JsStrings

  /** An exercise as the catalogue returns it. */
  datatype Exercise = Exercise(
    name: string,
    equipment: string,
    target: string,
    instructions: Option<seq<string>>,
    gifUrl: Option<string>)

  /** How many exercises the service hands out at most. */
  const MaxResults: nat := 10

  /** Words that mark an exercise as low impact. */
  const RecoveryFriendly: seq<string> := ["stretching", "cardio", "assisted", "machine", "cable"]

  /** Some recovery-friendly word occurs in the lower-cased equipment or name. */
  predicate IsLowImpact(ex: Exercise)
  {
    exists k :: 0 <= k < |RecoveryFriendly| &&
      (Includes(ToLower(ex.equipment), RecoveryFriendly[k]) || Includes(ToLower(ex.name), RecoveryFriendly[k]))
  }

  /** The lower-cased name mentions none of heavy, max, explosive. */
  predicate AvoidsHighRisk(ex: Exercise)
  {
    var n := ToLower(ex.name);
    !Includes(n, "heavy") && !Includes(n, "max") && !Includes(n, "explosive")
  }

  predicate KeptForRecovery(ex: Exercise)
  {
    IsLowImpact(ex) && AvoidsHighRisk(ex)
  }

  /** Keeps, in order and with multiplicity, exactly the low-impact exercises
      whose names carry no high-risk word. */
  function FilterForRecovery(exs: seq<Exercise>): (r: seq<Exercise>)
    ensures IsSubseq(r, exs)
    ensures forall i :: 0 <= i < |r| ==> IsLowImpact(r[i]) && AvoidsHighRisk(r[i])
    ensures forall x :: multiset(r)[x] == if KeptForRecovery(x) then multiset(exs)[x] else 0
  {
    Filter(KeptForRecovery, exs)
  }

  /** No kept exercise has "heavy", "max" or "explosive" anywhere in its
      lower-cased name. */
  lemma RecoveryKeepsNoHighRiskWord(exs: seq<Exercise>, i: int, j: int)
    requires 0 <= i < |FilterForRecovery(exs)|
    ensures var n := ToLower(FilterForRecovery(exs)[i].name);
      !OccursAt(n, "heavy", j) && !OccursAt(n, "max", j) && !OccursAt(n, "explosive", j)
  {
    var n := ToLower(FilterForRecovery(exs)[i].name);
    IncludesIffOccurs(n, "heavy");
    IncludesIffOccurs(n, "max");
    IncludesIffOccurs(n, "explosive");
  }

  /** The catalogue request's post-processing: the answer filtered for
      recovery, or nothing when the request or its decoding failed. */
  function FetchForRecovery(response: Option<seq<Exercise>>): (r: seq<Exercise>)
    ensures response.None? ==> r == []
    ensures response.Some? ==> IsSubseq(r, response.value)
    ensures response.Some? ==> forall x :: multiset(r)[x] == if KeptForRecovery(x) then multiset(response.value)[x] else 0
    ensures forall i :: 0 <= i < |r| ==> KeptForRecovery(r[i])
  {
    match response
    case None => []
    case Some(raw) => FilterForRecovery(raw)
  }

  /** Weeks one and two: stretching or gentle movements, or assisted equipment. */
  predicate EarlyWeekOk(ex: Exercise)
  {
    var n := ToLower(ex.name);
    Includes(n, "stretch") || Includes(n, "gentle") || ex.equipment == "assisted"
  }

  /** Weeks three to six: cable or resistance-band equipment, or a light exercise. */
  predicate MidWeekOk(ex: Exercise)
  {
    ex.equipment == "cable" || ex.equipment == "resistance band" || Includes(ToLower(ex.name), "light")
  }

  /** Narrows the exercises by recovery week; after week six nothing is removed. */
  function FilterByRecoveryWeek(exs: seq<Exercise>, week: int): (r: seq<Exercise>)
    ensures IsSubseq(r, exs)
    ensures week <= 2 ==> forall x :: multiset(r)[x] == if EarlyWeekOk(x) then multiset(exs)[x] else 0
    ensures 2 < week <= 6 ==> forall x :: multiset(r)[x] == if MidWeekOk(x) then multiset(exs)[x] else 0
    ensures week <= 2 ==> forall i :: 0 <= i < |r| ==> EarlyWeekOk(r[i])
    ensures 2 < week <= 6 ==> forall i :: 0 <= i < |r| ==> MidWeekOk(r[i])
    ensures week > 6 ==> r == exs
  {
    if week <= 2 then Filter(EarlyWeekOk, exs)
    else if week <= 6 then Filter(MidWeekOk, exs)
    else
      IsSubseqRefl(exs);
      exs
  }

  lemma {:induction false} IsSubseqRefl(s: seq<Exercise>)
    ensures IsSubseq(s, s)
    decreases |s|
  {
    if |s| > 0 {
      IsSubseqRefl(s[1..]);
    }
  }

  /** The surgery-to-body-part table; anything not in it, an absent surgery
      type included, falls back to cardio. */
  function BodyPartFor(surgeryType: Option<string>): (r: string)
    ensures r in {"legs", "shoulders", "back", "cardio"}
    ensures r == "cardio" <==>
      surgeryType.None? || surgeryType.value !in {"knee replacement", "shoulder surgery", "hip replacement", "back surgery"}
    ensures r == "legs" <==> surgeryType in {Some("knee replacement"), Some("hip replacement")}
    ensures r == "shoulders" <==> surgeryType == Some("shoulder surgery")
    ensures r == "back" <==> surgeryType == Some("back surgery")
  {
    match surgeryType
    case None => "cardio"
    case Some(s) =>
      if s == "knee replacement" then "legs"
      else if s == "shoulder surgery" then "shoulders"
      else if s == "hip replacement" then "legs"
      else if s == "back surgery" then "back"
      else "cardio"
  }

  /** The service entry point. `catalogue` answers a body-part request
      (`None` when it fails). The result is the first ten of the week-filtered
      recovery exercises for the mapped body part. */
  function GetRecoveryExercises(surgeryType: Option<string>, week: int,
                                catalogue: string -> Option<seq<Exercise>>): (r: seq<Exercise>)
    ensures var candidates := FilterByRecoveryWeek(FetchForRecovery(catalogue(BodyPartFor(surgeryType))), week);
      && |r| == Min(MaxResults, |candidates|)
      && r <= candidates
    ensures |r| <= MaxResults
    ensures forall i :: 0 <= i < |r| ==> KeptForRecovery(r[i])
    ensures catalogue(BodyPartFor(surgeryType)).None? ==> r == []
  {
    var fetched := FetchForRecovery(catalogue(BodyPartFor(surgeryType)));
    var candidates := FilterByRecoveryWeek(fetched, week);
    SubseqKeeps(candidates, fetched);
    Take(candidates, MaxResults)
  }

  /** A subsequence of recovery-kept exercises holds only such exercises. */
  lemma {:induction false} SubseqKeeps(r: seq<Exercise>, s: seq<Exercise>)
    requires IsSubseq(r, s)
    requires forall i :: 0 <= i < |s| ==> KeptForRecovery(s[i])
    ensures forall i :: 0 <= i < |r| ==> KeptForRecovery(r[i])
    decreases |s|
  {
    if |r| > 0 {
      assert |s| > 0;
      if r[0] == s[0] && IsSubseq(r[1..], s[1..]) {
        SubseqKeeps(r[1..], s[1..]);
        assert forall i :: 1 <= i < |r| ==> r[i] == r[1..][i - 1];
      } else {
        SubseqKeeps(r, s[1..]);
      }
    }
  }
}

=== FILE: history.dfy ===
/** The dose-history log: recording an outcome appends one immutable event,
    and the history query returns one user's events, optionally restricted
    to a scheduled-date range, most recent first. The log is an in-memory
    sequence in insertion order. */
module History {
  import opened Base
  import opened MedicalInfo

  /** The record handler: appends the validated event to the log; a request
      the schema rejects is a generic 500 and leaves the log as it was. */
  function SaveHistory(log: seq<HistoryEvent>, id: nat, userId: nat, medicineId: Option<nat>,
                       medicineName: Option<string>, scheduledDate: Option<int>,
                       scheduledTime: Option<string>, status: Option<string>, now: int)
    : (r: Result<seq<HistoryEvent>, RouteError>)
    ensures r.Ok? <==> medicineId.Some? && scheduledDate.Some? && status.Some?
                       && ParseStatus(status.value).Some?
    ensures r.Err? ==> r.error == ServerError
    ensures r.Ok? ==>
      && |r.value| == |log| + 1 && r.value[..|log|] == log
      && var e := r.value[|log|];
      && e.userId == userId && e.medicineId == medicineId.value
      && e.scheduledDate == scheduledDate.value
      && e.status == ParseStatus(status.value).value
      && e.actualTime == now
    ensures r.Ok? ==>
      r.value[|log|] == NewHistoryEvent(id, userId, medicineId, medicineName, scheduledDate,
                                        scheduledTime, status, now).value
  {
    match NewHistoryEvent(id, userId, medicineId, medicineName, scheduledDate, scheduledTime, status, now)
    case None => Err(ServerError)
    case Some(e) => Ok(log + [e])
  }

  /** Events ordered by scheduled date, most recent first. */
  predicate SortedDesc(s: seq<HistoryEvent>)
  {
    forall i, j :: 0 <= i < j < |s| ==> s[i].scheduledDate >= s[j].scheduledDate
  }

  /** Inserts `e` before the first event that is not more recent. */
  function InsertDesc(e: HistoryEvent, s: seq<HistoryEvent>): (r: seq<HistoryEvent>)
    requires SortedDesc(s)
    ensures SortedDesc(r)
    ensures multiset(r) == multiset(s) + multiset{e}
    ensures forall x :: x in r ==> x == e || x in s
  {
    if |s| == 0 then [e]
    else if e.scheduledDate >= s[0].scheduledDate then [e] + s
    else
      var rest := InsertDesc(e, s[1..]);
      InsertBehindHead(e, s, rest);
      [s[0]] + rest
  }

  /** When `e` is older than the head of sorted `s`, the head can go back in
      front of `e` inserted into the rest. */
  lemma InsertBehindHead(e: HistoryEvent, s: seq<HistoryEvent>, rest: seq<HistoryEvent>)
    requires SortedDesc(s) && |s| > 0 && e.scheduledDate < s[0].scheduledDate
    requires SortedDesc(rest)
    requires multiset(rest) == multiset(s[1..]) + multiset{e}
    requires forall x :: x in rest ==> x == e || x in s[1..]
    ensures SortedDesc([s[0]] + rest)
    ensures multiset([s[0]] + rest) == multiset(s) + multiset{e}
    ensures forall x :: x in [s[0]] + rest ==> x == e || x in s
  {
    assert s == [s[0]] + s[1..];
    var r := [s[0]] + rest;
    forall i, j | 0 <= i < j < |r|
      ensures r[i].scheduledDate >= r[j].scheduledDate
    {
      if i == 0 {
        assert r[j] in rest;
        if r[j] != e {
          var k :| 0 <= k < |s[1..]| && s[1..][k] == r[j];
          assert s[k + 1] == r[j];
        }
      } else {
        assert r[i] == rest[i - 1] && r[j] == rest[j - 1];
      }
    }
  }

  /** Sorts events most recent first. */
  function SortDesc(s: seq<HistoryEvent>): (r: seq<HistoryEvent>)
    ensures SortedDesc(r)
    ensures multiset(r) == multiset(s)
  {
    if |s| == 0 then []
    else
      assert s == [s[0]] + s[1..];
      InsertDesc(s[0], SortDesc(s[1..]))
  }

  /** The query's filter: the user's own events, and, only when both bounds
      are given, those scheduled within them inclusive. */
  predicate Selected(e: HistoryEvent, userId: nat, startDate: Option<int>, endDate: Option<int>)
  {
    && e.userId == userId
    && (startDate.Some? && endDate.Some? ==> startDate.value <= e.scheduledDate <= endDate.value)
  }

  /** The history query handler. `store` is what the database query over
      the whole log returned, `None` when it failed; a failed query is the
      handler's 500. */
  function QueryHistory(store: Option<seq<HistoryEvent>>, userId: nat, startDate: Option<int>, endDate: Option<int>)
    : (r: Result<seq<HistoryEvent>, RouteError>)
    ensures store.None? <==> r.Err?
    ensures r.Err? ==> r.error == ServerError
    ensures r.Ok? ==> SortedDesc(r.value)
    ensures r.Ok? ==>
      forall e :: multiset(r.value)[e] == if Selected(e, userId, startDate, endDate) then multiset(store.value)[e] else 0
    ensures r.Ok? ==> forall e :: e in r.value <==> e in store.value && Selected(e, userId, startDate, endDate)
  {
    if store.None? then Err(ServerError)
    else
      var log := store.value;
      var p := (e: HistoryEvent) => Selected(e, userId, startDate, endDate);
      var r := SortDesc(Filter(p, log));
      forall e
        ensures e in r <==> e in log && Selected(e, userId, startDate, endDate)
      {
        FilterMembership(p, log, e);
        assert e in r <==> e in multiset(r);
      }
      Ok(r)
  }
}

=== FILE: medical_info.dfy ===
/** The three document shapes of the medical-information store: a medicine
    embedded in a profile, a dose-history event, and the per-user profile
    that owns an ordered list of medicines. Timestamps are integer
    milliseconds; object ids are natural numbers chosen by the caller. */
module MedicalInfo {
  import opened Base

  /** How a request handler fails: the two 404 answers, and the generic 500
      answer that every thrown error (a failed validation included) becomes. */
  datatype RouteError = ProfileNotFound | MedicineNotFound | ServerError

  /** Milliseconds in a calendar day. */
  const DayMs: int := 86_400_000

  /** The UTC calendar day of a timestamp, as a day number since the epoch:
      the date part of its ISO string. */
  function DayOf(t: int): int
  {
    t / DayMs
  }

  /** Days a medicine runs when no duration is given. */
  const DefaultDuration: int := 30

  /** The closed set of outcomes a dose-history event may record. */
  datatype Status = Taken | Skipped | Missed

  function StatusName(st: Status): string
  {
    match st
    case Taken => "taken"
    case Skipped => "skipped"
    case Missed => "missed"
  }

  /** The enum validator: a submitted status string is accepted exactly when
      it is the name of one of the three statuses, and then names that status. */
  function ParseStatus(s: string): (r: Option<Status>)
    ensures r.Some? ==> StatusName(r.value) == s
    ensures r.None? <==> forall st: Status :: StatusName(st) != s
  {
    if s == "taken" then Some(Taken)
    else if s == "skipped" then Some(Skipped)
    else if s == "missed" then Some(Missed)
    else None
  }

  /** A medicine subdocument as stored. `name` is absent when the caller sent
      none; such a record fails validation and is never saved. */
  datatype Medicine = Medicine(
    id: nat,
    name: Option<string>,
    dosage: Option<string>,
    frequency: Option<string>,
    times: seq<string>,          // one "HH:MM" entry per time of day
    startDate: int,
    duration: int,               // days
    active: bool,
    reminderEnabled: bool)

  /** The `required` validator on `name`: present and not the empty string. */
  predicate ValidMedicine(m: Medicine)
  {
    m.name.Some? && m.name.value != ""
  }

  /** The fields a request may carry for a medicine; `None` is a field the
      request leaves out. */
  datatype MedicineFields = MedicineFields(
    name: Option<string>,
    dosage: Option<string>,
    frequency: Option<string>,
    times: Option<seq<string>>,
    startDate: Option<int>,
    duration: Option<int>,
    active: Option<bool>,
    reminderEnabled: Option<bool>)

  const NoFields := MedicineFields(None, None, None, None, None, None, None, None)

  function GetOr<T>(o: Option<T>, default: T): T
  {
    match o
    case Some(v) => v
    case None => default
  }

  /** Builds the stored medicine from submitted fields, applying the schema
      defaults to every omitted field. */
  function CastMedicine(f: MedicineFields, id: nat, now: int): (m: Medicine)
    ensures m.id == id && m.name == f.name && m.dosage == f.dosage && m.frequency == f.frequency
    ensures f.times.None? ==> m.times == []
    ensures f.startDate.None? ==> m.startDate == now
    ensures f.duration.None? ==> m.duration == DefaultDuration
    ensures f.active.None? ==> m.active
    ensures f.reminderEnabled.None? ==> m.reminderEnabled
    ensures f.times.Some? ==> m.times == f.times.value
    ensures f.startDate.Some? ==> m.startDate == f.startDate.value
    ensures f.duration.Some? ==> m.duration == f.duration.value
    ensures f.active.Some? ==> m.active == f.active.value
    ensures f.reminderEnabled.Some? ==> m.reminderEnabled == f.reminderEnabled.value
    ensures ValidMedicine(m) <==> f.name.Some? && f.name.value != ""
  {
    Medicine(id, f.name, f.dosage, f.frequency, GetOr(f.times, []), GetOr(f.startDate, now),
             GetOr(f.duration, DefaultDuration), GetOr(f.active, true), GetOr(f.reminderEnabled, true))
  }

  /** Every field of a stored medicine, as a request that supplies all of them. */
  function FieldsOf(m: Medicine): MedicineFields
  {
    MedicineFields(m.name, m.dosage, m.frequency, Some(m.times), Some(m.startDate),
                   Some(m.duration), Some(m.active), Some(m.reminderEnabled))
  }

  /** Supplying every field overrides every default: casting the fields of a
      stored medicine under its own id gives it back, whatever the clock says. */
  lemma CastFieldsOfRoundTrip(m: Medicine, now: int)
    ensures CastMedicine(FieldsOf(m), m.id, now) == m
  {
  }

  /** A dose-history event. Events are never edited once stored. */
  datatype HistoryEvent = HistoryEvent(
    id: nat,
    userId: nat,
    medicineId: nat,
    medicineName: Option<string>,
    scheduledDate: int,
    scheduledTime: Option<string>,
    actualTime: int,
    status: Status,
    createdAt: int)

  /** Validates and builds a history event: the medicine id and status are
      required, the status must be one of the enum values, the scheduled date
      must be a valid date, and `actualTime` and `createdAt` take the
      creation time. `None` means the document is rejected. */
  function NewHistoryEvent(id: nat, userId: nat, medicineId: Option<nat>, medicineName: Option<string>,
                           scheduledDate: Option<int>, scheduledTime: Option<string>,
                           status: Option<string>, now: int): (r: Option<HistoryEvent>)
    ensures r.Some? <==> medicineId.Some? && scheduledDate.Some? && status.Some?
                         && status.value in {"taken", "skipped", "missed"}
    ensures r.Some? ==>
      && r.value.id == id && r.value.userId == userId
      && r.value.medicineId == medicineId.value && r.value.medicineName == medicineName
      && r.value.scheduledDate == scheduledDate.value && r.value.scheduledTime == scheduledTime
      && StatusName(r.value.status) == status.value
      && r.value.actualTime == now && r.value.createdAt == now
  {
    if medicineId.None? || scheduledDate.None? || status.None? then None
    else
      match ParseStatus(status.value)
      case None => None
      case Some(st) =>
        Some(HistoryEvent(id, userId, medicineId.value, medicineName, scheduledDate.value,
                          scheduledTime, now, st, now))
  }

  /** The per-user medical profile: three free-text fields and the ordered
      list of medicines it owns. */
  datatype Profile = Profile(
    userId: nat,
    surgeryDetails: Option<string>,
    healthStatus: Option<string>,
    otherHealthProblems: Option<string>,
    medicine: seq<Medicine>,
    createdAt: int)

  /** A profile passes validation when every medicine it owns does. */
  predicate ValidProfile(p: Profile)
  {
    forall i :: 0 <= i < |p.medicine| ==> ValidMedicine(p.medicine[i])
  }

  /** The ids of a profile's medicines are pairwise distinct. */
  predicate UniqueIds(ms: seq<Medicine>)
  {
    forall i, j :: 0 <= i < j < |ms| ==> ms[i].id != ms[j].id
  }

  function EmptyProfile(userId: nat, now: int): (p: Profile)
    ensures p.userId == userId && p.medicine == [] && p.createdAt == now
    ensures p.surgeryDetails.None? && p.healthStatus.None? && p.otherHealthProblems.None?
    ensures ValidProfile(p)
  {
    Profile(userId, None, None, None, [], now)
  }
}

=== FILE: medicines.dfy ===
/** The medicine-management request handlers with the web framework and the
    database stripped away: each takes the profile the store returned for
    the signed-in user (`None` when there is none) and returns the profile
    that would be saved, or the error answer. */
module Medicines {
  import opened Base
  import opened JsStrings
  import opened MedicalInfo

  /** The `medicines` value of the medical-info form: a falsy value, a single
      object, or an array of objects. */
  datatype Submitted = Absent | Single(entry: MedicineFields) | Many(entries: seq<MedicineFields>)

  /** JavaScript truthiness of the `name` field. */
  predicate HasName(f: MedicineFields)
  {
    f.name.Some? && f.name.value != ""
  }

  /** The array branch's test: a truthy name that is not blank after `trim`. */
  predicate HasNonBlankName(f: MedicineFields)
  {
    HasName(f) && Trim(f.name.value) != ""
  }

  /** Normalises the submitted medicines: an array keeps, in order and with
      multiplicity, exactly the entries with a non-blank name; a single object
      becomes a one-element list when its name is truthy (blank or not); a
      falsy value gives the empty list. */
  function NormalizeMedicines(input: Submitted): (r: seq<MedicineFields>)
    ensures input.Absent? ==> r == []
    ensures input.Single? ==> (r == [input.entry] <==> HasName(input.entry))
    ensures input.Single? && !HasName(input.entry) ==> r == []
    ensures input.Many? ==> IsSubseq(r, input.entries)
    ensures input.Many? ==> forall f :: multiset(r)[f] == if HasNonBlankName(f) then multiset(input.entries)[f] else 0
    ensures forall i :: 0 <= i < |r| ==> HasName(r[i])
  {
    match input
    case Absent => []
    case Single(e) => if HasName(e) then [e] else []
    case Many(es) =>
      var r := Filter(HasNonBlankName, es);
      assert forall i :: 0 <= i < |r| ==> HasNonBlankName(r[i]);
      r
  }

  /** An array entry whose name is only whitespace is dropped, while the same
      entry sent on its own is kept: the single-object branch has no trim test. */
  lemma BlankNameSingleVersusArray(f: MedicineFields)
    requires f.name == Some(" ")
    ensures NormalizeMedicines(Single(f)) == [f]
    ensures NormalizeMedicines(Many([f])) == []
  {
    var r := NormalizeMedicines(Many([f]));
    assert Trim(" ") == "" by {
      TrimEmptyIffBlank(" ");
    }
    assert multiset(r)[f] == 0;
  }

  /** Casts the normalised entries into stored medicines; the store assigns
      each a fresh id, here `idSeed`, `idSeed + 1`, ... */
  function CastAll(fs: seq<MedicineFields>, idSeed: nat, now: int): (ms: seq<Medicine>)
    ensures |ms| == |fs|
    ensures forall k :: 0 <= k < |ms| ==> ms[k] == CastMedicine(fs[k], idSeed + k, now)
  {
    seq(|fs|, k requires 0 <= k < |fs| => CastMedicine(fs[k], idSeed + k, now))
  }

  /** The medical-info form handler: normalises the medicines, then creates
      the profile or overwrites its three text fields and its whole medicine
      list. Normalisation only lets named entries through, so the save always
      passes validation, and the fresh ids are distinct. */
  function SaveMedicalInfo(stored: Option<Profile>, userId: nat, surgeryDetails: Option<string>,
                           healthStatus: Option<string>, otherHealthProblems: Option<string>,
                           medicines: Submitted, idSeed: nat, now: int): (p: Profile)
    ensures p.userId == (if stored.Some? then stored.value.userId else userId)
    ensures p.createdAt == (if stored.Some? then stored.value.createdAt else now)
    ensures p.surgeryDetails == surgeryDetails && p.healthStatus == healthStatus
    ensures p.otherHealthProblems == otherHealthProblems
    ensures |p.medicine| == |NormalizeMedicines(medicines)|
    ensures forall k :: 0 <= k < |p.medicine| ==>
      p.medicine[k] == CastMedicine(NormalizeMedicines(medicines)[k], idSeed + k, now)
    ensures ValidProfile(p)
    ensures UniqueIds(p.medicine)
  {
    var meds := CastAll(NormalizeMedicines(medicines), idSeed, now);
    match stored
    case None => Profile(userId, surgeryDetails, healthStatus, otherHealthProblems, meds, now)
    case Some(q) =>
      q.(surgeryDetails := surgeryDetails, healthStatus := healthStatus,
         otherHealthProblems := otherHealthProblems, medicine := meds)
  }

  /** The medicine list a user sees: empty when there is no profile. */
  function ListMedicines(stored: Option<Profile>): seq<Medicine>
  {
    if stored.Some? then stored.value.medicine else []
  }

  /** The record the add handler pushes: the six accepted fields with a
      falsy `times`, `startDate` or `duration` replaced by its default
      (a start date or duration of 0 is falsy), and both flags forced on. */
  function NewMedicine(f: MedicineFields, id: nat, now: int): (m: Medicine)
    ensures m.id == id && m.name == f.name && m.dosage == f.dosage && m.frequency == f.frequency
    ensures m.times == (if f.times.Some? then f.times.value else [])
    ensures m.startDate == (if f.startDate.Some? && f.startDate.value != 0 then f.startDate.value else now)
    ensures m.duration != 0
    ensures m.duration == DefaultDuration <==> f.duration.None? || f.duration.value in {0, DefaultDuration}
    ensures f.duration.Some? && f.duration.value != 0 ==> m.duration == f.duration.value
    ensures m.active && m.reminderEnabled
  {
    Medicine(id, f.name, f.dosage, f.frequency, GetOr(f.times, []),
             if f.startDate.None? || f.startDate.value == 0 then now else f.startDate.value,
             if f.duration.None? || f.duration.value == 0 then DefaultDuration else f.duration.value,
             true, true)
  }

  /** The add handler: creates an empty profile when the user has none, then
      appends exactly one medicine after the existing ones; saving fails, and
      nothing is stored, when the name is missing or empty. */
  function AddMedicine(stored: Option<Profile>, userId: nat, f: MedicineFields, newId: nat, now: int): (r: Result<Profile, RouteError>)
    ensures r.Ok? <==> HasName(f)
    ensures r.Err? ==> r.error == ServerError
    ensures r.Ok? ==>
      var before := ListMedicines(stored);
      && |r.value.medicine| == |before| + 1
      && r.value.medicine[..|before|] == before
      && r.value.medicine[|before|] == NewMedicine(f, newId, now)
      && r.value.userId == (if stored.Some? then stored.value.userId else userId)
    ensures r.Ok? && stored.Some? ==> r.value == stored.value.(medicine := r.value.medicine)
    ensures r.Ok? && stored.None? ==> r.value == EmptyProfile(userId, now).(medicine := [NewMedicine(f, newId, now)])
    ensures r.Ok? && stored.Some? && ValidProfile(stored.value) ==> ValidProfile(r.value)
  {
    var p := if stored.Some? then stored.value else EmptyProfile(userId, now);
    var m := NewMedicine(f, newId, now);
    if !ValidMedicine(m) then Err(ServerError)
    else Ok(p.(medicine := p.medicine + [m]))
  }

  /** The index of the first medicine with id `id`: the lookup `.id(...)` does. */
  function FindIndex(ms: seq<Medicine>, id: nat): (r: Option<nat>)
    ensures r.Some? ==> r.value < |ms| && ms[r.value].id == id
                        && forall j :: 0 <= j < r.value ==> ms[j].id != id
    ensures r.None? <==> forall j :: 0 <= j < |ms| ==> ms[j].id != id
  {
    if |ms| == 0 then None
    else if ms[0].id == id then Some(0)
    else match FindIndex(ms[1..], id)
      case None => None
      case Some(k) => Some(k + 1)
  }

  /** `Object.assign` with an allow-listed request body: every field the
      patch carries overwrites the stored one; the id is never touched. */
  function ApplyPatch(m: Medicine, patch: MedicineFields): (r: Medicine)
    ensures r.id == m.id
    ensures r.name == (if patch.name.Some? then patch.name else m.name)
    ensures r.dosage == (if patch.dosage.Some? then patch.dosage else m.dosage)
    ensures r.frequency == (if patch.frequency.Some? then patch.frequency else m.frequency)
    ensures patch.times.Some? ==> r.times == patch.times.value
    ensures patch.times.None? ==> r.times == m.times
    ensures patch.startDate.Some? ==> r.startDate == patch.startDate.value
    ensures patch.startDate.None? ==> r.startDate == m.startDate
    ensures patch.duration.Some? ==> r.duration == patch.duration.value
    ensures patch.duration.None? ==> r.duration == m.duration
    ensures patch.active.Some? ==> r.active == patch.active.value
    ensures patch.active.None? ==> r.active == m.active
    ensures patch.reminderEnabled.Some? ==> r.reminderEnabled == patch.reminderEnabled.value
    ensures patch.reminderEnabled.None? ==> r.reminderEnabled == m.reminderEnabled
    ensures patch == NoFields ==> r == m
  {
    Medicine(m.id,
             if patch.name.Some? then patch.name else m.name,
             if patch.dosage.Some? then patch.dosage else m.dosage,
             if patch.frequency.Some? then patch.frequency else m.frequency,
             GetOr(patch.times, m.times),
             GetOr(patch.startDate, m.startDate),
             GetOr(patch.duration, m.duration),
             GetOr(patch.active, m.active),
             GetOr(patch.reminderEnabled, m.reminderEnabled))
  }

  /** Applying the same patch twice is applying it once. */
  lemma ApplyPatchIdempotent(m: Medicine, patch: MedicineFields)
    ensures ApplyPatch(ApplyPatch(m, patch), patch) == ApplyPatch(m, patch)
  {
  }

  /** A patch carrying every field of `n` turns any medicine into `n` under
      the medicine's own id (an absent optional field of `n` is not carried). */
  lemma ApplyFullPatch(m: Medicine, n: Medicine)
    requires n.name.Some? && n.dosage.Some? && n.frequency.Some?
    ensures ApplyPatch(m, FieldsOf(n)) == n.(id := m.id)
  {
  }

  /** The update handler: 404 without a profile or without a medicine of that
      id; otherwise the first medicine with that id is patched in place and
      nothing else changes; a patch that empties the name fails validation. */
  function UpdateMedicine(stored: Option<Profile>, id: nat, patch: MedicineFields): (r: Result<Profile, RouteError>)
    ensures stored.None? ==> r == Err(ProfileNotFound)
    ensures stored.Some? && FindIndex(stored.value.medicine, id).None? ==> r == Err(MedicineNotFound)
    ensures stored.Some? && FindIndex(stored.value.medicine, id).Some? ==>
      var ms := stored.value.medicine;
      var i := FindIndex(ms, id).value;
      && (r.Ok? <==> ValidMedicine(ApplyPatch(ms[i], patch)))
      && (r.Ok? ==> r.value == stored.value.(medicine := ms[i := ApplyPatch(ms[i], patch)]))
      && (r.Err? ==> r.error == ServerError)
    ensures r.Ok? ==> stored.Some? && |r.value.medicine| == |stored.value.medicine|
    ensures r.Ok? && ValidProfile(stored.value) ==> ValidProfile(r.value)
  {
    match stored
    case None => Err(ProfileNotFound)
    case Some(p) =>
      match FindIndex(p.medicine, id)
      case None => Err(MedicineNotFound)
      case Some(i) =>
        var m := ApplyPatch(p.medicine[i], patch);
        if !ValidMedicine(m) then Err(ServerError)
        else Ok(p.(medicine := p.medicine[i := m]))
  }

  /** The delete handler: 404 without a profile; an unknown id makes the
      lookup return null, whose `.remove()` throws, so it is a generic 500;
      otherwise the first medicine with that id is removed and the rest keep
      their order. */
  function DeleteMedicine(stored: Option<Profile>, id: nat): (r: Result<Profile, RouteError>)
    ensures stored.None? ==> r == Err(ProfileNotFound)
    ensures stored.Some? && (forall j :: 0 <= j < |stored.value.medicine| ==> stored.value.medicine[j].id != id)
            ==> r == Err(ServerError)
    ensures stored.Some? && FindIndex(stored.value.medicine, id).Some? ==>
      var ms := stored.value.medicine;
      var i := FindIndex(ms, id).value;
      r == Ok(stored.value.(medicine := ms[..i] + ms[i + 1..]))
  {
    match stored
    case None => Err(ProfileNotFound)
    case Some(p) =>
      match FindIndex(p.medicine, id)
      case None => Err(ServerError)
      case Some(i) => Ok(p.(medicine := p.medicine[..i] + p.medicine[i + 1..]))
  }

  /** With distinct ids, deleting an id the profile holds succeeds, leaves no
      medicine with that id and keeps every other one. */
  lemma DeleteRemovesExactlyTheId(stored: Option<Profile>, id: nat)
    requires stored.Some? && UniqueIds(stored.value.medicine)
    requires exists j :: 0 <= j < |stored.value.medicine| && stored.value.medicine[j].id == id
    ensures DeleteMedicine(stored, id).Ok?
    ensures var ms' := DeleteMedicine(stored, id).value.medicine;
      && |ms'| == |stored.value.medicine| - 1
      && (forall j :: 0 <= j < |ms'| ==> ms'[j].id != id)
      && (forall m :: m in stored.value.medicine && m.id != id ==> m in ms')
  {
    var ms := stored.value.medicine;
    var i := FindIndex(ms, id).value;
    var ms' := ms[..i] + ms[i + 1..];
    assert DeleteMedicine(stored, id).value.medicine == ms';
    forall j | 0 <= j < |ms'|
      ensures ms'[j].id != id
    {
      if j < i {
        assert ms'[j] == ms[j];
      } else {
        assert ms'[j] == ms[j + 1];
      }
    }
    forall m | m in ms && m.id != id
      ensures m in ms'
    {
      var k :| 0 <= k < |ms| && ms[k] == m;
      if k < i {
        assert ms'[k] == m;
      } else {
        assert k != i;
        assert ms'[k - 1] == m;
      }
    }
  }

  /** Adding a medicine under a fresh id and then deleting that id gives the
      stored profile back. */
  lemma AddThenDeleteRoundTrip(p: Profile, f: MedicineFields, newId: nat, now: int)
    requires HasName(f)
    requires forall j :: 0 <= j < |p.medicine| ==> p.medicine[j].id != newId
    ensures AddMedicine(Some(p), p.userId, f, newId, now).Ok?
    ensures DeleteMedicine(Some(AddMedicine(Some(p), p.userId, f, newId, now).value), newId) == Ok(p)
  {
    var q := AddMedicine(Some(p), p.userId, f, newId, now).value;
    assert q.medicine == p.medicine + [NewMedicine(f, newId, now)];
    var i := |p.medicine|;
    assert FindIndex(q.medicine, newId) == Some(i);
    assert q.medicine[..i] + q.medicine[i + 1..] == p.medicine;
  }
}

=== FILE: stats.dfy ===
/** The medicine-statistics handler: today's tally of the user's dose events,
    the adherence rate derived from it, and the streak. */
module Stats {
  import opened Base
  import opened MedicalInfo
  import opened Streak

  /** Today's counts, one per status, and the number of events. */
  datatype Tally = Tally(taken: nat, missed: nat, skipped: nat, total: nat)

  /** The user's events scheduled in `[startOfDay, startOfDay + one day)`. */
  predicate IsToday(e: HistoryEvent, userId: nat, startOfDay: int)
  {
    e.userId == userId && startOfDay <= e.scheduledDate < startOfDay + DayMs
  }

  function TodayEvents(log: seq<HistoryEvent>, userId: nat, startOfDay: int): seq<HistoryEvent>
  {
    Filter((e: HistoryEvent) => IsToday(e, userId, startOfDay), log)
  }

  /** The number of events with status `st`, counted from the back. */
  function CountStatus(es: seq<HistoryEvent>, st: Status): nat
  {
    if |es| == 0 then 0
    else CountStatus(es[..|es| - 1], st) + (if es[|es| - 1].status == st then 1 else 0)
  }

  /** The count is `history.filter(h => h.status === st).length`. */
  lemma {:induction false} CountStatusIsFilterLength(es: seq<HistoryEvent>, st: Status)
    ensures CountStatus(es, st) == |Filter((e: HistoryEvent) => e.status == st, es)|
    decreases |es|
  {
    if |es| > 0 {
      var init := es[..|es| - 1];
      assert es == init + [es[|es| - 1]];
      CountStatusIsFilterLength(init, st);
      FilterSnoc((e: HistoryEvent) => e.status == st, init, es[|es| - 1]);
    }
  }

  /** Tallies today's events in one pass; every event is counted under
      exactly one status, so the three counts add up to the total. */
  method TodayTally(log: seq<HistoryEvent>, userId: nat, startOfDay: int) returns (t: Tally)
    ensures t.total == |TodayEvents(log, userId, startOfDay)|
    ensures t.taken == CountStatus(TodayEvents(log, userId, startOfDay), Taken)
    ensures t.missed == CountStatus(TodayEvents(log, userId, startOfDay), Missed)
    ensures t.skipped == CountStatus(TodayEvents(log, userId, startOfDay), Skipped)
    ensures t.taken + t.missed + t.skipped == t.total
  {
    var today := TodayEvents(log, userId, startOfDay);
    t := Tally(0, 0, 0, 0);
    var i := 0;
    while i < |today|
      invariant 0 <= i <= |today|
      invariant t.total == i
      invariant t.taken == CountStatus(today[..i], Taken)
      invariant t.missed == CountStatus(today[..i], Missed)
      invariant t.skipped == CountStatus(today[..i], Skipped)
      invariant t.taken + t.missed + t.skipped == t.total
    {
      var e := today[i];
      assert today[..i + 1][..i] == today[..i];
      match e.status {
        case Taken => t := t.(taken := t.taken + 1, total := t.total + 1);
        case Missed => t := t.(missed := t.missed + 1, total := t.total + 1);
        case Skipped => t := t.(skipped := t.skipped + 1, total := t.total + 1);
      }
      i := i + 1;
    }
    assert today[..i] == today;
  }

  /** `Math.round(taken / total * 100)`, or 100 when there is nothing to
      count: the integer nearest to the percentage, halves rounded up. */
  function AdherenceRate(taken: nat, total: nat): (r: int)
    ensures total == 0 ==> r == 100
    ensures total > 0 ==> 2 * total * r <= 200 * taken + total < 2 * total * (r + 1)
    ensures taken <= total ==> 0 <= r <= 100
    ensures 0 < total == taken ==> r == 100
  {
    if total > 0 then
      RoundedPercent(taken, total);
      (200 * taken + total) / (2 * total)
    else 100
  }

  /** The quotient `q` of `n` by a positive `d` brackets `n` between `d * q`
      and `d * (q + 1)`. */
  lemma QuotientBrackets(n: int, d: int)
    requires d > 0
    ensures d * (n / d) <= n < d * (n / d + 1)
  {
    var q, m := n / d, n % d;
    assert n == d * q + m && 0 <= m < d;
    assert d * (q + 1) == d * q + d;
  }

  /** With a positive factor, a smaller product means a smaller factor. */
  lemma ProductOrder(d: int, a: int, b: int)
    requires d > 0 && d * a < d * b
    ensures a < b
  {
  }

  /** Round-half-up of the percentage `taken / total`: bracketed by the
      definition of rounding, between 0 and 100 when no more than all were
      taken, and exactly 100 when all were. */
  lemma RoundedPercent(taken: nat, total: nat)
    requires total > 0
    ensures var q := (200 * taken + total) / (2 * total);
      && 2 * total * q <= 200 * taken + total < 2 * total * (q + 1)
      && (taken <= total ==> 0 <= q <= 100)
      && (taken == total ==> q == 100)
  {
    var n, d := 200 * taken + total, 2 * total;
    var q := n / d;
    QuotientBrackets(n, d);
    assert 0 <= q;
    if taken <= total {
      assert d * 101 == 202 * total;
      ProductOrder(d, q, 101);
    }
    if taken == total {
      assert d * 100 == 200 * total;
      ProductOrder(d, 99, q);
    }
  }

  /** A day with two doses taken and one missed, next to another user's dose
      and one of the user's doses from the previous day: the tally sees only
      the three doses of the day, and the rate is 67 percent. */
  lemma TwoOfThreeDay()
    ensures var day := 5 * DayMs;
      var log := [
        HistoryEvent(1, 7, 1, None, day + 1000, None, 0, Taken, 0),
        HistoryEvent(2, 7, 1, None, day - 1000, None, 0, Missed, 0),
        HistoryEvent(3, 8, 1, None, day + 2000, None, 0, Taken, 0),
        HistoryEvent(4, 7, 2, None, day + 3000, None, 0, Missed, 0),
        HistoryEvent(5, 7, 2, None, day + DayMs - 1, None, 0, Taken, 0)];
      var today := TodayEvents(log, 7, day);
      && |today| == 3
      && CountStatus(today, Taken) == 2
      && CountStatus(today, Missed) == 1
      && AdherenceRate(CountStatus(today, Taken), |today|) == 67
  {
    var day := 5 * DayMs;
    var e1 := HistoryEvent(1, 7, 1, None, day + 1000, None, 0, Taken, 0);
    var e2 := HistoryEvent(2, 7, 1, None, day - 1000, None, 0, Missed, 0);
    var e3 := HistoryEvent(3, 8, 1, None, day + 2000, None, 0, Taken, 0);
    var e4 := HistoryEvent(4, 7, 2, None, day + 3000, None, 0, Missed, 0);
    var e5 := HistoryEvent(5, 7, 2, None, day + DayMs - 1, None, 0, Taken, 0);
    var log := [e1, e2, e3, e4, e5];
    assert log[1..] == [e2, e3, e4, e5] && log[2..] == [e3, e4, e5];
    assert log[3..] == [e4, e5] && log[4..] == [e5] && [e5][1..] == [];
    assert TodayEvents([e5], 7, day) == [e5];
    assert TodayEvents([e4, e5], 7, day) == [e4, e5];
    assert TodayEvents([e3, e4, e5], 7, day) == [e4, e5];
    assert TodayEvents([e2, e3, e4, e5], 7, day) == [e4, e5];
    assert TodayEvents(log, 7, day) == [e1, e4, e5];
    var today := [e1, e4, e5];
    assert today[..2] == [e1, e4] && today[..2][..1] == [e1] && [e1][..0] == [];
    assert CountStatus([e1], Taken) == 1 && CountStatus([e1], Missed) == 0;
    assert CountStatus([e1, e4], Taken) == 1 && CountStatus([e1, e4], Missed) == 1;
    assert CountStatus(today, Taken) == 2 && CountStatus(today, Missed) == 1;
    assert AdherenceRate(2, 3) == 67;
  }

  /** The statistics answer. */
  datatype MedicineStatsReport = MedicineStatsReport(today: Tally, adherenceRate: int, streak: StreakInfo)

  /** The statistics handler. It issues two independent queries: `todayStore`
      answers the query for today's events and `streakStore` the streak
      helper's query, each `None` when it fails. A failing today query makes
      the request a 500; a failing streak query is absorbed by the helper into
      a zero streak and the request still succeeds. */
  method MedicineStats(todayStore: Option<seq<HistoryEvent>>, streakStore: Option<seq<HistoryEvent>>,
                       userId: nat, now: int, startOfDay: int)
    returns (r: Result<MedicineStatsReport, RouteError>)
    ensures todayStore.None? <==> r.Err?
    ensures r.Err? ==> r.error == ServerError
    ensures r.Ok? ==>
      var today := TodayEvents(todayStore.value, userId, startOfDay);
      var t := r.value.today;
      && t.total == |today|
      && t.taken == CountStatus(today, Taken)
      && t.missed == CountStatus(today, Missed)
      && t.skipped == CountStatus(today, Skipped)
      && t.taken + t.missed + t.skipped == t.total
      && r.value.adherenceRate == AdherenceRate(t.taken, t.total)
      && 0 <= r.value.adherenceRate <= 100
      && (t.total == 0 ==> r.value.adherenceRate == 100)
      && (t.taken == t.total ==> r.value.adherenceRate == 100)
      && r.value.streak.current <= 1 && r.value.streak.current <= r.value.streak.longest
      && r.value.streak == CalculateStreak(streakStore, userId, now)
    ensures r.Ok? && streakStore.None? ==> r.value.streak == StreakInfo(0, 0)
  {
    if todayStore.None? {
      return Err(ServerError);
    }
    var t := TodayTally(todayStore.value, userId, startOfDay);
    var rate := AdherenceRate(t.taken, t.total);
    var streak := CalculateStreak(streakStore, userId, now);
    r := Ok(MedicineStatsReport(t, rate, streak));
  }
}

=== FILE: streak.dfy ===
/** The adherence streak. The user's events of the last thirty days are
    grouped into one bucket per UTC calendar day that has at least one event,
    the buckets are walked newest first, and the walk reports the longest run
    of consecutive fully adherent buckets together with the "current" value,
    which is only ever set while visiting the newest bucket. Days without any
    event have no bucket, so they never interrupt a run. */
module Streak {
  import opened Base
  import opened MedicalInfo

  /** One calendar day's counts: how many events, and how many of them taken. */
  datatype Bucket = Bucket(day: int, taken: nat, total: nat)

  /** A day is fully adherent when it has events and all of them were taken. */
  predicate Adherent(b: Bucket)
  {
    b.taken == b.total && b.total > 0
  }

  /** Buckets sorted newest first, one per day. */
  predicate StrictlyDesc(bs: seq<Bucket>)
  {
    forall i, j :: 0 <= i < j < |bs| ==> bs[i].day > bs[j].day
  }

  /** The shape grouping produces: newest first, every bucket non-empty. */
  predicate WellFormed(bs: seq<Bucket>)
  {
    && StrictlyDesc(bs)
    && forall i :: 0 <= i < |bs| ==> 1 <= bs[i].total && bs[i].taken <= bs[i].total
  }

  function Days(bs: seq<Bucket>): set<int>
  {
    set i | 0 <= i < |bs| :: bs[i].day
  }

  /** How many events the buckets hold for day `d`. */
  function TotalOn(bs: seq<Bucket>, d: int): nat
  {
    if |bs| == 0 then 0
    else (if bs[0].day == d then bs[0].total else 0) + TotalOn(bs[1..], d)
  }

  /** How many taken events the buckets hold for day `d`. */
  function TakenOn(bs: seq<Bucket>, d: int): nat
  {
    if |bs| == 0 then 0
    else (if bs[0].day == d then bs[0].taken else 0) + TakenOn(bs[1..], d)
  }

  /** Counts one event of day `day` into the buckets: the day's bucket gains
      one to its total, and one to its taken count when the event was taken;
      a day seen for the first time gets a new bucket in date order. */
  function AddRecord(bs: seq<Bucket>, day: int, taken: bool): (r: seq<Bucket>)
    requires WellFormed(bs)
    ensures WellFormed(r)
    ensures Days(r) == Days(bs) + {day}
    ensures |r| > 0 && r[0].day == if |bs| == 0 || bs[0].day < day then day else bs[0].day
  {
    var one: nat := if taken then 1 else 0;
    if |bs| == 0 || bs[0].day < day then
      var nb := Bucket(day, one, 1);
      NewFront(nb, bs);
      [nb] + bs
    else if bs[0].day == day then
      var nb := Bucket(day, bs[0].taken + one, bs[0].total + 1);
      SameFront(nb, bs);
      [nb] + bs[1..]
    else
      var tail := bs[1..];
      var rest := AddRecord(tail, day, taken);
      KeepFront(bs, tail, rest, day);
      [bs[0]] + rest
  }

  /** A bucket for a day newer than every bucket goes in front. */
  lemma NewFront(b: Bucket, bs: seq<Bucket>)
    requires WellFormed(bs)
    requires 1 <= b.total && b.taken <= b.total
    requires |bs| == 0 || b.day > bs[0].day
    ensures WellFormed([b] + bs)
    ensures Days([b] + bs) == Days(bs) + {b.day}
    ensures ([b] + bs)[0] == b
  {
    DaysCons(b, bs);
    ConsWellFormed(b, bs);
  }

  /** A bucket for the newest bucket's day replaces it. */
  lemma SameFront(b: Bucket, bs: seq<Bucket>)
    requires WellFormed(bs) && |bs| > 0 && b.day == bs[0].day
    requires 1 <= b.total && b.taken <= b.total
    ensures WellFormed([b] + bs[1..])
    ensures Days([b] + bs[1..]) == Days(bs) + {b.day}
    ensures ([b] + bs[1..])[0] == b
  {
    Uncons(bs);
    DaysCons(b, bs[1..]);
    ConsWellFormed(b, bs[1..]);
  }

  /** The newest bucket stays in front of the older buckets once a day older
      than it has been added to them. */
  lemma KeepFront(bs: seq<Bucket>, tail: seq<Bucket>, rest: seq<Bucket>, day: int)
    requires WellFormed(bs) && |bs| > 0 && tail == bs[1..] && day < bs[0].day
    requires WellFormed(rest) && Days(rest) == Days(tail) + {day}
    requires |rest| > 0 && rest[0].day == if |tail| == 0 || tail[0].day < day then day else tail[0].day
    ensures WellFormed([bs[0]] + rest)
    ensures Days([bs[0]] + rest) == Days(bs) + {day}
    ensures ([bs[0]] + rest)[0] == bs[0]
  {
    Uncons(bs);
    DaysCons(bs[0], rest);
    ConsWellFormed(bs[0], rest);
  }

  /** Well-formed buckets are their first bucket in front of well-formed,
      older ones. */
  lemma Uncons(bs: seq<Bucket>)
    requires WellFormed(bs) && |bs| > 0
    ensures bs == [bs[0]] + bs[1..]
    ensures WellFormed(bs[1..])
    ensures |bs| == 1 || bs[0].day > bs[1].day
    ensures 1 <= bs[0].total && bs[0].taken <= bs[0].total
    ensures Days(bs) == {bs[0].day} + Days(bs[1..])
  {
    assert bs == [bs[0]] + bs[1..];
    DaysCons(bs[0], bs[1..]);
  }

  /** A non-empty bucket newer than the first of well-formed buckets can be
      put in front of them. */
  lemma ConsWellFormed(b: Bucket, bs: seq<Bucket>)
    requires WellFormed(bs)
    requires 1 <= b.total && b.taken <= b.total
    requires |bs| == 0 || b.day > bs[0].day
    ensures WellFormed([b] + bs)
  {
    var r := [b] + bs;
    forall i, j | 0 <= i < j < |r|
      ensures r[i].day > r[j].day
    {
      if i == 0 {
        assert r[j] == bs[j - 1];
        assert bs[0].day >= bs[j - 1].day;
      } else {
        assert r[i] == bs[i - 1] && r[j] == bs[j - 1];
      }
    }
  }

  /** Adding a record counts it for its own day and for no other. */
  lemma {:induction false} AddRecordCounts(bs: seq<Bucket>, day: int, taken: bool, d: int)
    requires WellFormed(bs)
    ensures TotalOn(AddRecord(bs, day, taken), d) == TotalOn(bs, d) + (if d == day then 1 else 0)
    ensures TakenOn(AddRecord(bs, day, taken), d) == TakenOn(bs, d) + (if d == day && taken then 1 else 0)
  {
    if |bs| > 0 && bs[0].day > day {
      AddRecordCounts(bs[1..], day, taken, d);
      var r := AddRecord(bs, day, taken);
      assert r == [bs[0]] + AddRecord(bs[1..], day, taken);
      assert r[1..] == AddRecord(bs[1..], day, taken);
    } else if |bs| > 0 && bs[0].day < day {
      var r := AddRecord(bs, day, taken);
      assert r[1..] == bs;
    } else if |bs| > 0 {
      var r := AddRecord(bs, day, taken);
      assert r[1..] == bs[1..];
    }
  }

  /** The days of buckets with one more bucket in front. */
  lemma DaysCons(b: Bucket, bs: seq<Bucket>)
    ensures Days([b] + bs) == {b.day} + Days(bs)
  {
    var r := [b] + bs;
    assert r[0] == b;
    forall x | x in Days(r)
      ensures x in {b.day} + Days(bs)
    {
      var i :| 0 <= i < |r| && r[i].day == x;
      if i > 0 {
        assert bs[i - 1].day == x;
      }
    }
    forall x | x in Days(bs)
      ensures x in Days(r)
    {
      var i :| 0 <= i < |bs| && bs[i].day == x;
      assert r[i + 1].day == x;
    }
  }

  /** The events of the list that fall on day `d`. */
  function OnDay(es: seq<HistoryEvent>, d: int): seq<HistoryEvent>
  {
    Filter((e: HistoryEvent) => DayOf(e.scheduledDate) == d, es)
  }

  /** The taken events of the list that fall on day `d`. */
  function TakenOnDay(es: seq<HistoryEvent>, d: int): seq<HistoryEvent>
  {
    Filter((e: HistoryEvent) => DayOf(e.scheduledDate) == d && e.status == Taken, es)
  }

  /** The calendar days on which the events fall. */
  function EventDays(es: seq<HistoryEvent>): set<int>
  {
    set i | 0 <= i < |es| :: DayOf(es[i].scheduledDate)
  }

  lemma EventDaysSnoc(es: seq<HistoryEvent>, e: HistoryEvent)
    ensures EventDays(es + [e]) == EventDays(es) + {DayOf(e.scheduledDate)}
  {
    var r := es + [e];
    forall x | x in EventDays(r)
      ensures x in EventDays(es) + {DayOf(e.scheduledDate)}
    {
      var i :| 0 <= i < |r| && DayOf(r[i].scheduledDate) == x;
      if i < |es| {
        assert DayOf(es[i].scheduledDate) == x;
      }
    }
    forall x | x in EventDays(es)
      ensures x in EventDays(r)
    {
      var i :| 0 <= i < |es| && DayOf(es[i].scheduledDate) == x;
      assert DayOf(r[i].scheduledDate) == x;
    }
    assert DayOf(r[|es|].scheduledDate) in EventDays(r);
  }

  /** One more event adds one to its day's count, and to its day's taken
      count when it was taken. */
  lemma OnDaySnoc(es: seq<HistoryEvent>, e: HistoryEvent, d: int)
    ensures |OnDay(es + [e], d)| == |OnDay(es, d)| + (if DayOf(e.scheduledDate) == d then 1 else 0)
    ensures |TakenOnDay(es + [e], d)| == |TakenOnDay(es, d)| + (if DayOf(e.scheduledDate) == d && e.status == Taken then 1 else 0)
  {
    FilterSnoc((x: HistoryEvent) => DayOf(x.scheduledDate) == d, es, e);
    FilterSnoc((x: HistoryEvent) => DayOf(x.scheduledDate) == d && x.status == Taken, es, e);
  }

  /** Groups events by calendar day: exactly the days that have events get a
      bucket, and each bucket counts that day's events and taken events. */
  function Group(es: seq<HistoryEvent>): (r: seq<Bucket>)
    ensures WellFormed(r)
    ensures Days(r) == EventDays(es)
    ensures forall d :: TotalOn(r, d) == |OnDay(es, d)|
    ensures forall d :: TakenOn(r, d) == |TakenOnDay(es, d)|
  {
    if |es| == 0 then []
    else
      var init, e := es[..|es| - 1], es[|es| - 1];
      assert es == init + [e];
      GroupStep(init, e, Group(init));
      AddRecord(Group(init), DayOf(e.scheduledDate), e.status == Taken)
  }

  /** Counting one more event into the buckets of the earlier events gives
      the buckets of all of them. */
  lemma GroupStep(init: seq<HistoryEvent>, e: HistoryEvent, g: seq<Bucket>)
    requires WellFormed(g)
    requires Days(g) == EventDays(init)
    requires forall d :: TotalOn(g, d) == |OnDay(init, d)|
    requires forall d :: TakenOn(g, d) == |TakenOnDay(init, d)|
    ensures Days(AddRecord(g, DayOf(e.scheduledDate), e.status == Taken)) == EventDays(init + [e])
    ensures forall d :: TotalOn(AddRecord(g, DayOf(e.scheduledDate), e.status == Taken), d) == |OnDay(init + [e], d)|
    ensures forall d :: TakenOn(AddRecord(g, DayOf(e.scheduledDate), e.status == Taken), d) == |TakenOnDay(init + [e], d)|
  {
    var day, taken := DayOf(e.scheduledDate), e.status == Taken;
    var r := AddRecord(g, day, taken);
    EventDaysSnoc(init, e);
    forall d
      ensures TotalOn(r, d) == |OnDay(init + [e], d)|
      ensures TakenOn(r, d) == |TakenOnDay(init + [e], d)|
    {
      OnDaySnoc(init, e, d);
      AddRecordCounts(g, day, taken, d);
    }
  }

  /** In newest-first buckets, the counts for a bucket's day are that bucket's. */
  lemma {:induction false} BucketCounts(bs: seq<Bucket>, i: int)
    requires StrictlyDesc(bs) && 0 <= i < |bs|
    ensures TotalOn(bs, bs[i].day) == bs[i].total
    ensures TakenOn(bs, bs[i].day) == bs[i].taken
  {
    if i == 0 {
      NoCountsBefore(bs[1..], bs[0].day);
    } else {
      BucketCounts(bs[1..], i - 1);
    }
  }

  /** Newest-first buckets all older than `d` hold nothing for `d`. */
  lemma {:induction false} NoCountsBefore(bs: seq<Bucket>, d: int)
    requires StrictlyDesc(bs)
    requires forall i :: 0 <= i < |bs| ==> bs[i].day < d
    ensures TotalOn(bs, d) == 0 && TakenOn(bs, d) == 0
  {
    if |bs| > 0 {
      NoCountsBefore(bs[1..], d);
    }
  }

  /** Buckets `a`, ..., `b - 1` are all fully adherent. */
  predicate IsRun(bs: seq<Bucket>, a: int, b: int)
  {
    0 <= a <= b <= |bs| && forall k :: a <= k < b ==> Adherent(bs[k])
  }

  /** `n` is the length of the longest run of consecutive adherent buckets. */
  ghost predicate IsLongestRun(bs: seq<Bucket>, n: int)
  {
    && (exists a, b :: IsRun(bs, a, b) && b - a == n)
    && (forall a, b :: IsRun(bs, a, b) ==> b - a <= n)
  }

  /** The result of the streak computation. */
  datatype StreakInfo = StreakInfo(current: nat, longest: nat)

  /** The loop over the sorted dates, from position `i` on: `temp` is the
      running count, `longest` the best closed run, and `current` is set to
      the running count only while visiting the first date. */
  function Walk(bs: seq<Bucket>, i: nat, current: nat, longest: nat, temp: nat): StreakInfo
    requires i <= |bs|
    decreases |bs| - i
  {
    if i == |bs| then StreakInfo(current, if longest < temp then temp else longest)
    else if Adherent(bs[i]) then
      Walk(bs, i + 1, if bs[i].day == bs[0].day then temp + 1 else current, longest, temp + 1)
    else
      Walk(bs, i + 1, current, if longest < temp then temp else longest, 0)
  }

  /** A run cannot reach back past a bucket that is not adherent. */
  lemma RunStartsAfterBreak(bs: seq<Bucket>, a: int, b: int, s: int)
    requires IsRun(bs, a, b) && 0 <= s <= b
    requires s == 0 || !Adherent(bs[s - 1])
    ensures s <= a
  {
  }

  /** The walk's invariant before bucket `i`: `temp` is the length of the
      maximal run ending just before `i`, and every run seen so far is at
      most the larger of `longest` and `temp`, with `longest` itself
      attained. */
  ghost predicate WalkInvariant(bs: seq<Bucket>, i: nat, longest: nat, temp: nat)
  {
    && i <= |bs|
    && temp <= i && IsRun(bs, i - temp, i)
    && (i - temp == 0 || !Adherent(bs[i - temp - 1]))
    && (forall a, b :: IsRun(bs, a, b) && b <= i ==> b - a <= Max(longest, temp))
    && (exists a, b :: IsRun(bs, a, b) && b <= i && b - a == longest)
  }

  /** The walk keeps its invariant and ends with the longest run. */
  lemma {:induction false} WalkLongest(bs: seq<Bucket>, i: nat, current: nat, longest: nat, temp: nat)
    requires WalkInvariant(bs, i, longest, temp)
    ensures IsLongestRun(bs, Walk(bs, i, current, longest, temp).longest)
    decreases |bs| - i, 1
  {
    if i == |bs| {
      WalkEnd(bs, longest, temp);
    } else if Adherent(bs[i]) {
      WalkLongestAdherent(bs, i, current, longest, temp);
    } else {
      WalkLongestBreak(bs, i, current, longest, temp);
    }
  }

  /** `WalkLongest` at an adherent bucket. */
  lemma {:induction false} WalkLongestAdherent(bs: seq<Bucket>, i: nat, current: nat, longest: nat, temp: nat)
    requires WalkInvariant(bs, i, longest, temp)
    requires i < |bs| && Adherent(bs[i])
    ensures IsLongestRun(bs, Walk(bs, i, current, longest, temp).longest)
    decreases |bs| - i, 0
  {
    var current' := if bs[i].day == bs[0].day then temp + 1 else current;
    WalkExtends(bs, i, longest, temp);
    WalkLongest(bs, i + 1, current', longest, temp + 1);
    LongestOfEqual(bs, Walk(bs, i + 1, current', longest, temp + 1).longest, Walk(bs, i, current, longest, temp).longest);
  }

  /** `WalkLongest` at a bucket that is not adherent. */
  lemma {:induction false} WalkLongestBreak(bs: seq<Bucket>, i: nat, current: nat, longest: nat, temp: nat)
    requires WalkInvariant(bs, i, longest, temp)
    requires i < |bs| && !Adherent(bs[i])
    ensures IsLongestRun(bs, Walk(bs, i, current, longest, temp).longest)
    decreases |bs| - i, 0
  {
    var longest' := if longest < temp then temp else longest;
    WalkBreaks(bs, i, longest, temp);
    WalkLongest(bs, i + 1, current, longest', 0);
    LongestOfEqual(bs, Walk(bs, i + 1, current, longest', 0).longest, Walk(bs, i, current, longest, temp).longest);
  }

  /** The longest run's length may be named by any equal value. */
  lemma LongestOfEqual(bs: seq<Bucket>, n: int, m: int)
    requires IsLongestRun(bs, n) && n == m
    ensures IsLongestRun(bs, m)
  {
  }

  /** At the end of the buckets the larger of `longest` and `temp` is the
      longest run. */
  lemma WalkEnd(bs: seq<Bucket>, longest: nat, temp: nat)
    requires WalkInvariant(bs, |bs|, longest, temp)
    ensures IsLongestRun(bs, if longest < temp then temp else longest)
  {
    if longest < temp {
      assert IsRun(bs, |bs| - temp, |bs|);
    }
  }

  /** An adherent bucket extends the current run by one. */
  lemma WalkExtends(bs: seq<Bucket>, i: nat, longest: nat, temp: nat)
    requires WalkInvariant(bs, i, longest, temp)
    requires i < |bs| && Adherent(bs[i])
    ensures WalkInvariant(bs, i + 1, longest, temp + 1)
  {
    forall a, b | IsRun(bs, a, b) && b <= i + 1
      ensures b - a <= Max(longest, temp + 1)
    {
      if b == i + 1 {
        RunStartsAfterBreak(bs, a, b, i - temp);
      }
    }
  }

  /** A bucket that is not adherent closes the current run. */
  lemma WalkBreaks(bs: seq<Bucket>, i: nat, longest: nat, temp: nat)
    requires WalkInvariant(bs, i, longest, temp)
    requires i < |bs| && !Adherent(bs[i])
    ensures WalkInvariant(bs, i + 1, if longest < temp then temp else longest, 0)
  {
    var longest' := if longest < temp then temp else longest;
    forall a, b | IsRun(bs, a, b) && b <= i + 1
      ensures b - a <= Max(longest', 0)
    {
      if b == i + 1 {
        RunStartsAfterBreak(bs, a, b, i + 1);
      }
    }
    if longest < temp {
      assert IsRun(bs, i - temp, i);
    }
    assert IsRun(bs, i + 1, i + 1);
  }

  /** Past the first date the walk never assigns `current` again. */
  lemma {:induction false} WalkKeepsCurrent(bs: seq<Bucket>, i: nat, current: nat, longest: nat, temp: nat)
    requires StrictlyDesc(bs)
    requires 1 <= i <= |bs|
    ensures Walk(bs, i, current, longest, temp).current == current
    decreases |bs| - i
  {
    if i < |bs| {
      var longest' := if longest < temp then temp else longest;
      if Adherent(bs[i]) {
        WalkKeepsCurrent(bs, i + 1, current, longest, temp + 1);
      } else {
        WalkKeepsCurrent(bs, i + 1, current, longest', 0);
      }
    }
  }

  /** The walk from the start: `current` is 1 exactly when the newest bucket
      is adherent, `longest` is the longest run of adherent buckets, and so it
      is bounded by the number of buckets and is at least `current`. */
  lemma WalkSpec(bs: seq<Bucket>)
    requires StrictlyDesc(bs)
    ensures var s := Walk(bs, 0, 0, 0, 0);
      && (s.current == if |bs| > 0 && Adherent(bs[0]) then 1 else 0)
      && IsLongestRun(bs, s.longest)
      && s.current <= s.longest <= |bs|
  {
    assert IsRun(bs, 0, 0);
    WalkLongest(bs, 0, 0, 0, 0);
    var s := Walk(bs, 0, 0, 0, 0);
    if |bs| > 0 {
      if Adherent(bs[0]) {
        WalkKeepsCurrent(bs, 1, 1, 0, 1);
        assert IsRun(bs, 0, 1);
      } else {
        WalkKeepsCurrent(bs, 1, 0, 0, 0);
      }
    }
    var a, b :| IsRun(bs, a, b) && b - a == s.longest;
  }

  /** The window of the streak query: the user's events scheduled at or after
      thirty days before now. */
  predicate InWindow(e: HistoryEvent, userId: nat, now: int)
  {
    e.userId == userId && e.scheduledDate >= now - 30 * DayMs
  }

  function Window(log: seq<HistoryEvent>, userId: nat, now: int): seq<HistoryEvent>
  {
    Filter((e: HistoryEvent) => InWindow(e, userId, now), log)
  }

  /** The day buckets of the streak window. */
  function Buckets(log: seq<HistoryEvent>, userId: nat, now: int): seq<Bucket>
  {
    Group(Window(log, userId, now))
  }

  /** The streak helper. `store` is the history store's answer, `None` when
      the query fails; a failure is absorbed into a zero streak. */
  function CalculateStreak(store: Option<seq<HistoryEvent>>, userId: nat, now: int): (r: StreakInfo)
    ensures store.None? ==> r == StreakInfo(0, 0)
    ensures store.Some? ==>
      var bs := Buckets(store.value, userId, now);
      && (r.current == 1 <==> |bs| > 0 && Adherent(bs[0]))
      && IsLongestRun(bs, r.longest)
    ensures r.current <= 1 && r.current <= r.longest
    ensures store.Some? ==> r.longest <= |Buckets(store.value, userId, now)|
  {
    match store
    case None => StreakInfo(0, 0)
    case Some(log) =>
      var bs := Buckets(log, userId, now);
      WalkSpec(bs);
      Walk(bs, 0, 0, 0, 0)
  }

  /** The most recent calendar day among the events. */
  function LatestDay(es: seq<HistoryEvent>): (d: int)
    requires |es| > 0
    ensures forall i :: 0 <= i < |es| ==> DayOf(es[i].scheduledDate) <= d
    ensures exists i :: 0 <= i < |es| && DayOf(es[i].scheduledDate) == d
  {
    if |es| == 1 then DayOf(es[0].scheduledDate)
    else
      var d := LatestDay(es[1..]);
      assert forall i :: 1 <= i < |es| ==> es[i] == es[1..][i - 1];
      if DayOf(es[0].scheduledDate) < d then d else DayOf(es[0].scheduledDate)
  }

  /** A day's taken count reaches its event count exactly when every event
      of that day was taken. */
  lemma {:induction false} TakenCountIff(es: seq<HistoryEvent>, d: int)
    ensures |TakenOnDay(es, d)| <= |OnDay(es, d)|
    ensures |TakenOnDay(es, d)| == |OnDay(es, d)|
            <==> forall i :: 0 <= i < |es| && DayOf(es[i].scheduledDate) == d ==> es[i].status == Taken
  {
    if |es| > 0 {
      var tail := es[1..];
      TakenCountIff(tail, d);
      OnDayCons(es, d);
      assert (forall i :: 0 <= i < |es| && DayOf(es[i].scheduledDate) == d ==> es[i].status == Taken)
             <==> (DayOf(es[0].scheduledDate) == d ==> es[0].status == Taken)
                  && (forall i :: 0 <= i < |tail| && DayOf(tail[i].scheduledDate) == d ==> tail[i].status == Taken)
      by {
        assert forall i :: 1 <= i < |es| ==> es[i] == tail[i - 1];
      }
    }
  }

  /** The day's counts of a non-empty list: its first event's contribution
      plus the counts of the rest. */
  lemma OnDayCons(es: seq<HistoryEvent>, d: int)
    requires |es| > 0
    ensures |OnDay(es, d)| == (if DayOf(es[0].scheduledDate) == d then 1 else 0) + |OnDay(es[1..], d)|
    ensures |TakenOnDay(es, d)| ==
      (if DayOf(es[0].scheduledDate) == d && es[0].status == Taken then 1 else 0) + |TakenOnDay(es[1..], d)|
  {
  }

  /** The event-level meaning of `current`: it is 1 exactly when the window
      has events and every event on its most recent day was taken. */
  lemma StreakCurrentMeaning(log: seq<HistoryEvent>, userId: nat, now: int)
    ensures var w := Window(log, userId, now);
      CalculateStreak(Some(log), userId, now).current == 1
      <==> |w| > 0 && forall i :: 0 <= i < |w| && DayOf(w[i].scheduledDate) == LatestDay(w) ==> w[i].status == Taken
  {
    var w := Window(log, userId, now);
    var bs := Group(w);
    if |w| > 0 {
      assert DayOf(w[0].scheduledDate) in EventDays(w);
      assert |bs| > 0;
      var d := LatestDay(w);
      assert d in Days(bs);
      assert bs[0].day in EventDays(w);
      assert bs[0].day == d;
      BucketCounts(bs, 0);
      TakenCountIff(w, d);
    }
  }

  /** Some run of `n` consecutive adherent buckets exists in `bs`. */
  ghost predicate HasRunOfLength(bs: seq<Bucket>, n: int)
  {
    exists a, b :: IsRun(bs, a, b) && b - a == n
  }

  /** `r` is `bs` with the non-adherent bucket `nb` at position `k`, either
      replacing the old bucket there or inserted before it. */
  predicate MissedShape(bs: seq<Bucket>, r: seq<Bucket>, k: int, nb: Bucket, replaced: bool)
  {
    && 0 <= k < |r| && r[k] == nb && !Adherent(nb)
    && |r| == |bs| + (if replaced then 0 else 1)
    && (forall i :: 0 <= i < k ==> r[i] == bs[i])
    && (replaced ==> forall i :: k < i < |r| ==> r[i] == bs[i])
    && (!replaced ==> forall i :: k < i < |r| ==> r[i] == bs[i - 1])
  }

  lemma MissedShapeCons(bs: seq<Bucket>, rest: seq<Bucket>, k: int, nb: Bucket, replaced: bool)
    requires |bs| > 0 && MissedShape(bs[1..], rest, k, nb, replaced)
    ensures MissedShape(bs, [bs[0]] + rest, k + 1, nb, replaced)
  {
  }

  /** Where a record that was not taken lands: either in a new bucket
      inserted at `k`, or in the existing bucket at `k`, which it makes
      non-adherent; the buckets around it are the old ones. */
  lemma {:induction false} AddMissedShape(bs: seq<Bucket>, day: int) returns (k: nat, nb: Bucket, replaced: bool)
    requires WellFormed(bs)
    ensures MissedShape(bs, AddRecord(bs, day, false), k, nb, replaced)
  {
    if |bs| == 0 {
      k, nb, replaced := 0, Bucket(day, 0, 1), false;
    } else if bs[0].day == day {
      k, nb, replaced := 0, Bucket(day, bs[0].taken, bs[0].total + 1), true;
    } else if bs[0].day < day {
      k, nb, replaced := 0, Bucket(day, 0, 1), false;
    } else {
      var k', nb', replaced' := AddMissedShape(bs[1..], day);
      MissedShapeCons(bs, AddRecord(bs[1..], day, false), k', nb', replaced');
      k, nb, replaced := k' + 1, nb', replaced';
    }
  }

  /** Every adherent run after a missed record was already a run before. */
  lemma RunSurvivesMissed(bs: seq<Bucket>, day: int, a: int, b: int)
    requires WellFormed(bs)
    requires IsRun(AddRecord(bs, day, false), a, b)
    ensures HasRunOfLength(bs, b - a)
  {
    var r := AddRecord(bs, day, false);
    var k, nb, replaced := AddMissedShape(bs, day);
    if a == b {
      assert IsRun(bs, 0, 0);
    } else if b <= k {
      assert IsRun(bs, a, b);
    } else if a > k {
      if replaced {
        assert IsRun(bs, a, b);
      } else {
        forall i | a - 1 <= i < b - 1
          ensures Adherent(bs[i])
        {
          assert r[i + 1] == bs[i];
        }
        assert IsRun(bs, a - 1, b - 1);
      }
    }
  }

  /** At the level of buckets: a record that was not taken never lengthens
      the longest run and never makes the newest bucket adherent. */
  lemma MissedRecordNeverRaisesWalk(bs: seq<Bucket>, day: int)
    requires WellFormed(bs)
    ensures Walk(AddRecord(bs, day, false), 0, 0, 0, 0).longest <= Walk(bs, 0, 0, 0, 0).longest
    ensures Walk(AddRecord(bs, day, false), 0, 0, 0, 0).current <= Walk(bs, 0, 0, 0, 0).current
  {
    var r := AddRecord(bs, day, false);
    WalkSpec(bs);
    WalkSpec(r);
    var s' := Walk(r, 0, 0, 0, 0);
    var a, b :| IsRun(r, a, b) && b - a == s'.longest;
    RunSurvivesMissed(bs, day, a, b);
    var k, nb, replaced := AddMissedShape(bs, day);
    if s'.current == 1 {
      assert Adherent(r[0]);
      assert k != 0;
      assert r[0] == bs[0];
    }
  }

  /** Grouping one more event is adding its record to the buckets. */
  lemma GroupSnoc(es: seq<HistoryEvent>, e: HistoryEvent)
    ensures Group(es + [e]) == AddRecord(Group(es), DayOf(e.scheduledDate), e.status == Taken)
  {
    var es' := es + [e];
    assert es'[..|es'| - 1] == es;
  }

  /** The window of a log extended by one event. */
  lemma BucketsSnoc(log: seq<HistoryEvent>, userId: nat, now: int, e: HistoryEvent)
    ensures InWindow(e, userId, now) ==>
      Buckets(log + [e], userId, now)
      == AddRecord(Buckets(log, userId, now), DayOf(e.scheduledDate), e.status == Taken)
    ensures !InWindow(e, userId, now) ==> Buckets(log + [e], userId, now) == Buckets(log, userId, now)
  {
    FilterSnoc((x: HistoryEvent) => InWindow(x, userId, now), log, e);
    if InWindow(e, userId, now) {
      assert Window(log + [e], userId, now) == Window(log, userId, now) + [e];
      GroupSnoc(Window(log, userId, now), e);
    } else {
      assert Window(log + [e], userId, now) == Window(log, userId, now);
    }
  }

  /** Recording a dose that was not taken never lengthens the longest streak
      and never turns the current streak on: the streak is monotonically
      non-increasing as missed doses are inserted. */
  lemma MissedDoseNeverRaisesStreak(log: seq<HistoryEvent>, userId: nat, now: int, e: HistoryEvent)
    requires e.status != Taken
    ensures CalculateStreak(Some(log + [e]), userId, now).longest <= CalculateStreak(Some(log), userId, now).longest
    ensures CalculateStreak(Some(log + [e]), userId, now).current <= CalculateStreak(Some(log), userId, now).current
  {
    BucketsSnoc(log, userId, now, e);
    if InWindow(e, userId, now) {
      MissedRecordNeverRaisesWalk(Buckets(log, userId, now), DayOf(e.scheduledDate));
    }
  }

  /** Five fully adherent days followed by a newest day with a missed dose:
      no current streak, and a longest streak of five. */
  lemma FiveAdherentThenMissed()
    ensures var bs := [Bucket(6, 0, 1), Bucket(5, 1, 1), Bucket(4, 2, 2), Bucket(3, 1, 1),
                       Bucket(2, 3, 3), Bucket(1, 1, 1)];
      Walk(bs, 0, 0, 0, 0) == StreakInfo(0, 5)
  {
    var bs := [Bucket(6, 0, 1), Bucket(5, 1, 1), Bucket(4, 2, 2), Bucket(3, 1, 1),
               Bucket(2, 3, 3), Bucket(1, 1, 1)];
    WalkSpec(bs);
    var s := Walk(bs, 0, 0, 0, 0);
    assert IsRun(bs, 1, 6);
    var a, b :| IsRun(bs, a, b) && b - a == s.longest;
  }
}

=== FILE: strings.dfy ===
/** The handful of JavaScript string operations the handlers rely on:
    `String.prototype.trim`, `toLowerCase` (restricted to ASCII letters)
    and `includes`. Strings are sequences of characters. */
module JsStrings {

  /** ECMAScript WhiteSpace and LineTerminator code points, the set `trim` removes. */
  predicate IsWhitespace(c: char)
  {
    var n := c as int;
    n == 0x09 || n == 0x0A || n == 0x0B || n == 0x0C || n == 0x0D || n == 0x20
    || n == 0xA0 || n == 0x1680 || (0x2000 <= n <= 0x200A) || n == 0x2028
    || n == 0x2029 || n == 0x202F || n == 0x205F || n == 0x3000 || n == 0xFEFF
  }

  predicate IsBlank(s: string)
  {
    forall i :: 0 <= i < |s| ==> IsWhitespace(s[i])
  }

  /** Drops leading whitespace: what remains is a suffix that is empty or
      starts with a non-whitespace character, and everything dropped is blank. */
  function TrimStart(s: string): (r: string)
    ensures |r| <= |s| && r == s[|s| - |r|..]
    ensures IsBlank(s[..|s| - |r|])
    ensures r == [] || !IsWhitespace(r[0])
  {
    if |s| > 0 && IsWhitespace(s[0]) then
      var r := TrimStart(s[1..]);
      assert s[..|s| - |r|] == [s[0]] + s[1..][..|s| - 1 - |r|];
      r
    else s
  }

  /** Drops trailing whitespace, symmetrically to `TrimStart`. */
  function TrimEnd(s: string): (r: string)
    ensures |r| <= |s| && r == s[..|r|]
    ensures IsBlank(s[|r|..])
    ensures r == [] || !IsWhitespace(r[|r| - 1])
  {
    if |s| > 0 && IsWhitespace(s[|s| - 1]) then
      var r := TrimEnd(s[..|s| - 1]);
      assert s[|r|..] == s[..|s| - 1][|r|..] + [s[|s| - 1]];
      r
    else s
  }

  /** `r` is the slice `s[i..j]` and only whitespace lies outside it. */
  predicate CutsBlanks(s: string, r: string, i: int, j: int)
  {
    0 <= i <= j <= |s| && r == s[i..j] && IsBlank(s[..i]) && IsBlank(s[j..])
  }

  /** `String.prototype.trim`: the longest slice of `s` that neither starts
      nor ends with whitespace, with only whitespace cut on either side. */
  function Trim(s: string): (r: string)
    ensures exists i, j :: CutsBlanks(s, r, i, j)
    ensures r == [] || (!IsWhitespace(r[0]) && !IsWhitespace(r[|r| - 1]))
  {
    var t := TrimStart(s);
    var r := TrimEnd(t);
    CutBoth(s, t, r);
    r
  }

  /** Cutting leading whitespace and then trailing whitespace leaves a slice
      with only whitespace outside it, which starts and ends with
      non-whitespace. */
  lemma CutBoth(s: string, t: string, r: string)
    requires |t| <= |s| && t == s[|s| - |t|..] && IsBlank(s[..|s| - |t|])
    requires t == [] || !IsWhitespace(t[0])
    requires |r| <= |t| && r == t[..|r|] && IsBlank(t[|r|..])
    requires r == [] || !IsWhitespace(r[|r| - 1])
    ensures CutsBlanks(s, r, |s| - |t|, |s| - |t| + |r|)
    ensures exists i, j :: CutsBlanks(s, r, i, j)
    ensures r == [] || (!IsWhitespace(r[0]) && !IsWhitespace(r[|r| - 1]))
  {
    PrefixOfSuffix(s, t, r);
    assert CutsBlanks(s, r, |s| - |t|, |s| - |t| + |r|);
    if r != [] {
      assert r[0] == t[0];
    }
  }

  /** A prefix `r` of a suffix `t` of `s` is a slice of `s`, and what follows
      it in `t` is what follows it in `s`. */
  lemma PrefixOfSuffix(s: string, t: string, r: string)
    requires |t| <= |s| && t == s[|s| - |t|..]
    requires |r| <= |t| && r == t[..|r|]
    ensures r == s[|s| - |t|..|s| - |t| + |r|]
    ensures s[|s| - |t| + |r|..] == t[|r|..]
  {
  }

  /** A string trims to the empty string exactly when it is blank. */
  lemma TrimEmptyIffBlank(s: string)
    ensures Trim(s) == [] <==> IsBlank(s)
  {
    var r := Trim(s);
    var i, j :| CutsBlanks(s, r, i, j);
    if r == [] {
      forall k | 0 <= k < |s|
        ensures IsWhitespace(s[k])
      {
        if k < i {
          assert s[k] == s[..i][k];
        } else {
          assert s[k] == s[j..][k - j];
        }
      }
    } else {
      assert r[0] == s[i];
    }
  }

  /** ASCII-only lower-casing of one character. */
  function LowerChar(c: char): (r: char)
    ensures !('A' <= r <= 'Z')
    ensures !('A' <= c <= 'Z') ==> r == c
    ensures 'A' <= c <= 'Z' ==> 'a' <= r <= 'z' && r as int - c as int == 32
  {
    if 'A' <= c <= 'Z' then (c as int + 32) as char else c
  }

  /** `String.prototype.toLowerCase`, restricted to ASCII letters. */
  function ToLower(s: string): (r: string)
    ensures |r| == |s|
    ensures forall i :: 0 <= i < |r| ==> !('A' <= r[i] <= 'Z')
  {
    seq(|s|, i requires 0 <= i < |s| => LowerChar(s[i]))
  }

  /** `p` occurs in `s` starting at index `i`. */
  predicate OccursAt(s: string, p: string, i: int)
  {
    0 <= i && i + |p| <= |s| && s[i..i + |p|] == p
  }

  /** `String.prototype.includes`, scanning for `p` from the left. */
  predicate Includes(s: string, p: string)
    decreases |s|
  {
    (|p| <= |s| && s[..|p|] == p) || (|s| > 0 && Includes(s[1..], p))
  }

  /** A position where an `Includes` match starts. */
  lemma {:induction false} IncludesWitness(s: string, p: string) returns (i: int)
    requires Includes(s, p)
    ensures OccursAt(s, p, i)
    decreases |s|
  {
    if |p| <= |s| && s[..|p|] == p {
      i := 0;
    } else {
      var k := IncludesWitness(s[1..], p);
      assert s[1..][k..k + |p|] == s[k + 1..k + 1 + |p|];
      i := k + 1;
    }
  }

  /** An occurrence anywhere is found by the left-to-right scan. */
  lemma {:induction false} OccursIncludes(s: string, p: string, i: int)
    requires OccursAt(s, p, i)
    ensures Includes(s, p)
    decreases i
  {
    if i > 0 {
      assert s[1..][i - 1..i - 1 + |p|] == s[i..i + |p|];
      OccursIncludes(s[1..], p, i - 1);
    }
  }

  /** `Includes` holds exactly when `p` occurs at some position of `s`. */
  lemma IncludesIffOccurs(s: string, p: string)
    ensures Includes(s, p) <==> exists i :: OccursAt(s, p, i)
  {
    if Includes(s, p) {
      var i := IncludesWitness(s, p);
    }
    if i :| OccursAt(s, p, i) {
      OccursIncludes(s, p, i);
    }
  }
}

=== FILE: workout.dfy ===
/** The workout-plan generator: a base weekly plan, one catalogue exercise
    appended to each day in turn, and the workout-plan request handler with
    its two date helpers. The base engine, the catalogue and the clock are
    inputs. */
module Workout {
  import opened Base
  import opened MedicalInfo
  import opened Exercises

  /** An exercise as it appears in a day of the plan. */
  datatype PlanExercise = PlanExercise(
    name: string,
    description: string,
    duration: string,
    instructions: seq<string>,
    gifUrl: Option<string>)

  /** One day of the weekly plan; the plan lists its days in key order. */
  datatype DayPlan = DayPlan(day: string, exercises: seq<PlanExercise>)

  /** The generated plan: the enhanced week and the catalogue exercises it drew on. */
  datatype WorkoutPlan = WorkoutPlan(weeklyPlan: seq<DayPlan>, additionalExercises: seq<Exercise>)

  /** The fixed duration every appended exercise is given. */
  const AppendedDuration: string := "10-15 minutes"

  /** The plan entry made from a catalogue exercise: its name, a "Target: "
      description, the fixed duration, its instructions (none when it has
      none) and its picture. */
  function ToPlanExercise(ex: Exercise): (p: PlanExercise)
    ensures p.name == ex.name && p.gifUrl == ex.gifUrl && p.duration == AppendedDuration
    ensures p.description == "Target: " + ex.target
    ensures ex.instructions.Some? ==> p.instructions == ex.instructions.value
    ensures ex.instructions.None? ==> p.instructions == []
  {
    PlanExercise(ex.name, "Target: " + ex.target, AppendedDuration, GetOr(ex.instructions, []), ex.gifUrl)
  }

  /** The catalogue exercises converted, in order. */
  function Converted(api: seq<Exercise>): (ps: seq<PlanExercise>)
    ensures |ps| == |api|
    ensures forall k :: 0 <= k < |ps| ==> ps[k] == ToPlanExercise(api[k])
  {
    seq(|api|, k requires 0 <= k < |api| => ToPlanExercise(api[k]))
  }

  /** Day number `i` of the plan gets catalogue exercise number `i`, when
      there is one, after its own exercises; nothing else changes. */
  function EnhanceWeeklyPlan(plan: seq<DayPlan>, api: seq<Exercise>): (r: seq<DayPlan>)
    ensures |r| == |plan|
    ensures forall i :: 0 <= i < |r| ==> r[i].day == plan[i].day && plan[i].exercises <= r[i].exercises
    ensures forall i :: 0 <= i < |r| ==>
      |r[i].exercises| == |plan[i].exercises| + (if i < |api| then 1 else 0)
    ensures forall i :: 0 <= i < |r| && i < |api| ==> r[i].exercises[|plan[i].exercises|] == ToPlanExercise(api[i])
  {
    seq(|plan|, i requires 0 <= i < |plan| =>
      if i < |api| then plan[i].(exercises := plan[i].exercises + [ToPlanExercise(api[i])])
      else plan[i])
  }

  /** `after` is `before` with exercises appended to some days. */
  predicate Extends(before: seq<DayPlan>, after: seq<DayPlan>)
  {
    |before| == |after| && forall i :: 0 <= i < |before| ==> before[i].exercises <= after[i].exercises
  }

  /** The exercises appended to the plan, read day by day. */
  function NewExercises(before: seq<DayPlan>, after: seq<DayPlan>): seq<PlanExercise>
    requires Extends(before, after)
  {
    if |before| == 0 then []
    else after[0].exercises[|before[0].exercises|..] + NewExercises(before[1..], after[1..])
  }

  /** The number of exercises in the whole week. */
  function TotalExercises(plan: seq<DayPlan>): nat
  {
    if |plan| == 0 then 0 else |plan[0].exercises| + TotalExercises(plan[1..])
  }

  /** The catalogue list with its first exercise used up. */
  function Rest(api: seq<Exercise>): seq<Exercise>
  {
    if |api| == 0 then [] else api[1..]
  }

  /** Enhancing a plan is enhancing its first day with the first exercise and
      the other days with the rest. */
  lemma EnhanceTail(plan: seq<DayPlan>, api: seq<Exercise>)
    requires |plan| > 0
    ensures EnhanceWeeklyPlan(plan, api)[1..] == EnhanceWeeklyPlan(plan[1..], Rest(api))
  {
    var a := EnhanceWeeklyPlan(plan, api)[1..];
    var b := EnhanceWeeklyPlan(plan[1..], Rest(api));
    forall i | 0 <= i < |a|
      ensures a[i] == b[i]
    {
      if i + 1 < |api| {
        assert Rest(api)[i] == api[i + 1];
      }
    }
  }

  /** What the enhancement appends, read day by day, is exactly the first
      catalogue exercises, one per day, converted and in order: none is lost,
      repeated or reordered, and those beyond the number of days are dropped. */
  lemma {:induction false} EnhanceAppendsCatalogueInOrder(plan: seq<DayPlan>, api: seq<Exercise>)
    ensures Extends(plan, EnhanceWeeklyPlan(plan, api))
    ensures NewExercises(plan, EnhanceWeeklyPlan(plan, api)) == Converted(Take(api, |plan|))
    decreases |plan|
  {
    var r := EnhanceWeeklyPlan(plan, api);
    if |plan| > 0 {
      EnhanceTail(plan, api);
      EnhanceAppendsCatalogueInOrder(plan[1..], Rest(api));
      EnhanceFirstDay(plan, api);
      ConvertedTakeCons(api, |plan|);
    }
  }

  /** The exercises the first day gains: the first catalogue exercise, if any. */
  lemma EnhanceFirstDay(plan: seq<DayPlan>, api: seq<Exercise>)
    requires |plan| > 0
    ensures var r := EnhanceWeeklyPlan(plan, api);
      r[0].exercises[|plan[0].exercises|..] == if |api| > 0 then [ToPlanExercise(api[0])] else []
  {
  }

  /** The first `n` catalogue exercises, converted, are the first one
      followed by the next `n - 1`. */
  lemma ConvertedTakeCons(api: seq<Exercise>, n: nat)
    requires n > 0
    ensures Converted(Take(api, n)) ==
      (if |api| > 0 then [ToPlanExercise(api[0])] else []) + Converted(Take(Rest(api), n - 1))
  {
    var tail := Converted(Take(Rest(api), n - 1));
    if |api| > 0 {
      assert Converted(Take(api, n)) == [ToPlanExercise(api[0])] + tail;
    } else {
      assert Converted(Take(api, n)) == [] + tail;
    }
  }

  /** The week gains exactly one exercise per day that had a catalogue
      exercise to take. */
  lemma {:induction false} EnhanceTotal(plan: seq<DayPlan>, api: seq<Exercise>)
    ensures TotalExercises(EnhanceWeeklyPlan(plan, api)) == TotalExercises(plan) + Min(|plan|, |api|)
    decreases |plan|
  {
    if |plan| > 0 {
      EnhanceTail(plan, api);
      EnhanceTotal(plan[1..], Rest(api));
    }
  }

  /** The base engine's plan: the seven days from Monday to Sunday, each
      without exercises. */
  const DefaultWeeklyPlan: seq<DayPlan> := [
    DayPlan("Monday", []), DayPlan("Tuesday", []), DayPlan("Wednesday", []),
    DayPlan("Thursday", []), DayPlan("Friday", []), DayPlan("Saturday", []),
    DayPlan("Sunday", [])]

  /** Enhancing the base engine's plan gives the first seven catalogue
      exercises one day each, Monday first, and leaves the remaining days
      empty. */
  lemma EnhanceDefaultPlan(api: seq<Exercise>)
    ensures var r := EnhanceWeeklyPlan(DefaultWeeklyPlan, api);
      && |r| == 7
      && forall i :: 0 <= i < 7 ==>
           r[i].exercises == (if i < |api| then [ToPlanExercise(api[i])] else [])
  {
    var r := EnhanceWeeklyPlan(DefaultWeeklyPlan, api);
    forall i | 0 <= i < 7
      ensures r[i].exercises == (if i < |api| then [ToPlanExercise(api[i])] else [])
    {
      assert DefaultWeeklyPlan[i].exercises == [];
    }
  }

  /** The plan generator: the catalogue exercises for the surgery and week
      become the plan's additional exercises and are spread over the base
      plan's days, one per day in day order. */
  function GenerateEnhancedWorkoutPlan(basePlan: seq<DayPlan>, surgeryType: Option<string>, weeks: int,
                                       catalogue: string -> Option<seq<Exercise>>): (w: WorkoutPlan)
    ensures w.additionalExercises == GetRecoveryExercises(surgeryType, weeks, catalogue)
    ensures w.weeklyPlan == EnhanceWeeklyPlan(basePlan, w.additionalExercises)
    ensures |w.additionalExercises| <= MaxResults
    ensures forall i :: 0 <= i < |w.additionalExercises| ==> KeptForRecovery(w.additionalExercises[i])
    ensures Extends(basePlan, w.weeklyPlan)
    ensures forall i :: 0 <= i < |basePlan| ==> w.weeklyPlan[i].day == basePlan[i].day
    ensures NewExercises(basePlan, w.weeklyPlan) == Converted(Take(w.additionalExercises, |basePlan|))
  {
    var api := GetRecoveryExercises(surgeryType, weeks, catalogue);
    EnhanceAppendsCatalogueInOrder(basePlan, api);
    WorkoutPlan(EnhanceWeeklyPlan(basePlan, api), api)
  }

  /** Milliseconds in a week. */
  const WeekMs: int := 7 * DayMs

  /** Weeks since surgery, rounded up: 1 when no surgery date is known, and
      otherwise the least whole number of weeks covering the distance between
      the surgery and now, in either direction. */
  function WeeksPostSurgery(surgeryDate: Option<int>, now: int): (r: int)
    ensures surgeryDate.None? ==> r == 1
    ensures surgeryDate.Some? ==>
      var d := if now >= surgeryDate.value then now - surgeryDate.value else surgeryDate.value - now;
      0 <= r && (r - 1) * WeekMs < d <= r * WeekMs
  {
    match surgeryDate
    case None => 1
    case Some(s) =>
      var d := if now >= s then now - s else s - now;
      (d + WeekMs - 1) / WeekMs
  }

  /** A surgery date from the same instant gives week 0, not week 1. */
  lemma SameInstantIsWeekZero(now: int)
    ensures WeeksPostSurgery(Some(now), now) == 0
  {
  }

  /** When the plan is next refreshed: a week from now up to week eight,
      two weeks from now after it. */
  function NextUpdate(currentWeek: int, now: int): (r: int)
    ensures r - now == 7 * DayMs <==> currentWeek <= 8
    ensures r - now == 14 * DayMs <==> currentWeek > 8
  {
    var daysUntilUpdate := if currentWeek <= 8 then 7 else 14;
    now + daysUntilUpdate * DayMs
  }

  /** The workout-plan answer. */
  datatype WorkoutResponse = WorkoutResponse(workoutPlan: WorkoutPlan, generatedAt: int, nextUpdate: int)

  /** The workout-plan handler over the user's stored profile (`None` when the
      user or the profile is missing, a 404). The surgery type is the
      profile's surgery details; the profile has no surgery date, so the week
      is always 1 and the catalogue answer is narrowed with the weeks-one-and-two
      filter, and the next refresh is one week away. */
  function WorkoutPlanRoute(stored: Option<Profile>, catalogue: string -> Option<seq<Exercise>>, now: int)
    : (r: Result<WorkoutResponse, RouteError>)
    ensures stored.None? <==> r.Err?
    ensures r.Err? ==> r.error == ProfileNotFound
    ensures r.Ok? ==>
      var w := r.value.workoutPlan;
      && w.additionalExercises == GetRecoveryExercises(stored.value.surgeryDetails, 1, catalogue)
      && r.value.generatedAt == now
      && r.value.nextUpdate == now + 7 * DayMs
      && |w.weeklyPlan| == 7
      && (forall i :: 0 <= i < 7 ==>
            w.weeklyPlan[i].exercises ==
              (if i < |w.additionalExercises| then [ToPlanExercise(w.additionalExercises[i])] else []))
      && (forall i :: 0 <= i < |w.additionalExercises| ==>
            KeptForRecovery(w.additionalExercises[i]) && EarlyWeekOk(w.additionalExercises[i]))
      && (forall i :: 0 <= i < 7 ==>
            w.weeklyPlan[i].day == DefaultWeeklyPlan[i].day && |w.weeklyPlan[i].exercises| <= 1)
  {
    match stored
    case None => Err(ProfileNotFound)
    case Some(p) =>
      var weeks := WeeksPostSurgery(None, now);
      var plan := GenerateEnhancedWorkoutPlan(DefaultWeeklyPlan, p.surgeryDetails, weeks, catalogue);
      EnhanceDefaultPlan(plan.additionalExercises);
      Ok(WorkoutResponse(plan, now, NextUpdate(weeks, now)))
  }
}
